=== FILE: README.md ===
# Voxel world server rules and packet framing, in Dafny

This project models two parts of a voxel-world game and proves properties of them.

The first is the authoritative server world (`ServerWorld`):
- the block write with its edge callbacks (`setBlockState`, `setBlock`);
- six-direction neighbour notification (`updateNeighbors`, `updateNeighbor`);
- the one-hop power query (`getPower`, `getPowerExcept`);
- world generation's placement and population passes (`generateWorld`, `populateChunk`, `growTree`);
- the per-tick random updates (`performRandomUpdates`).

The second is the length-prefixed frame codec the two endpoints exchange packets through (`PacketCodec`).

The world is a finite map from block positions to immutable block states. A position outside the map has no chunk: reading it yields air and writing it does nothing. Block callbacks (`onRemoved`, `onAdded`, `onStateReplaced`, the three neighbour updates, `onRandomUpdate`) are not executed. Each operation returns the new world together with the trace of callbacks it fires, in order.

The world's random generator is an explicit sequence of draws. Each operation's precondition is a recursive predicate that says the draws it consumes are present and in range. Each operation also returns the draws it leaves.

A frame is `[length: u16 LE][id: i16 LE][body]`. A buffer is a byte sequence with a reader index. A registry is a pair of maps: the packet kind each id creates, and the id each kind is registered under.

Files and modules:
- **Shared:**
  - `wrappers.dfy`: `Option` and `Result`.
  - `bits.dfy`: Java `int` masks as bit sets.
  - `geometry.dfy`: positions and the six directions.
  - `blocks.dfy`: block types and states.
  - `grid.dfy`: multiplication facts for row-major indices.
- **`world.dfy`:** the world map and `setBlockState`/`setBlock`.
- **`neighbors.dfy`:** `updateNeighbors`/`updateNeighbor`. Both the guard as written and the corrected bit-test guard are modelled.
- **`power.dfy`:** `getPowerExcept`/`getPower`, as loops over the directions.
- **Generation:**
  - `trees.dfy`: `growTree`, as the list of writes its loops attempt plus the execution of that list.
  - `population.dfy`: `populateChunk`, column by column.
  - `generation.dfy`: `generateWorld`'s placement and population loops.
- **`random_ticks.dfy`:** `performRandomUpdates`.
- **`packet_codec.dfy`:** `encode`, `decode` as written, the decode that waits for whole frames, and `create`.

Notes on the code's behaviour, which the model follows as written:
- **Trunk:** `growTree` places a log on every level from 0 to `treeHeight - 2`. `trunkHeight = max(1, treeHeight - 5)` is only the level above which leaves are tried, not the number of logs.
- **Dirt:** the dirt of a tree column goes at the column's highest point, one below the trunk's base. The trunk's base cell keeps its log.
- **Neighbour updates:** every write of `growTree` requests them, not only the last level's.
- **Flag guard:** `updateNeighbors` dispatches all three update kinds whatever flags are passed, because its guard uses `|` (see Findings).
- **Delivery order:** it is fixed: flags block, state, inventory, and directions in `DIRECTIONS` order.
- **Power:** `getPowerExcept` starts from 0, so a neighbour reporting negative power never lowers the result.
- **Decode bound:** the frame's length field is an unsigned 16-bit value, so a declared length of 65536 cannot occur. The decoder's "exceeds maximum" error is unreachable.

## Model

| member | source | states |
|---|---|---|
| Geometry.OppositeInvolution | src/main/java/minecraft/server/world/ServerWorld.java:151-152 | the direction passed to a neighbour is the reverse of the step taken to reach it, and reversing twice gives the original direction back |
| Geometry.OffsetOpposite | src/main/java/minecraft/server/world/ServerWorld.java:151-152 | stepping to a neighbour and then towards the direction it is told the update came from returns to the origin |
| Geometry.OffsetInjective | src/main/java/minecraft/server/world/ServerWorld.java:151-152 | the six neighbours of a position are pairwise distinct: two directions reach the same cell iff they are equal |
| Geometry.DirectionsComplete | src/main/java/minecraft/server/world/ServerWorld.java:151 | the direction list iterated over holds every direction exactly once |
| Bits.OrNonzero | src/main/java/minecraft/server/world/ServerWorld.java:140-148 | OR-ing a nonzero flag constant into any mask gives a nonzero mask, which is why every guard of updateNeighbors holds |
| Blocks.PlantState | src/main/java/minecraft/server/world/ServerWorld.java:60-63 | the plant's default state with `type` changed is a plant-block state whose property value is the requested plant type |
| Blocks.PlantStateInjective | src/main/java/minecraft/server/world/ServerWorld.java:60-63 | different plant types give different states, so the property change is never lost |
| WorldModel.SetBlockState | src/main/java/minecraft/server/world/ServerWorld.java:109-130 | a write reports a change iff a chunk holds the position and the stored state differs; only then does the stored state change. With updates requested, `onRemoved` fires iff the new state is air, `onAdded` iff the old one was air, and `onStateReplaced` iff the block stays the same. Nothing fires otherwise |
| WorldModel.SetBlock | src/main/java/minecraft/server/world/ServerWorld.java:133-135 | setBlock stores the block's default state and reports a change iff that differs from what was stored |
| WorldModel.SetBlockStateEventOrder | src/main/java/minecraft/server/world/ServerWorld.java:116-123 | a write fires only its own three edge callbacks, at most one each, in the order removed, added, replaced |
| WorldModel.SetBlockStateIdempotent | src/main/java/minecraft/server/world/ServerWorld.java:112-129 | repeating a write reports no change, leaves the world as it is and fires nothing |
| WorldModel.NonAirWriteNeverRemoves | src/main/java/minecraft/server/world/ServerWorld.java:117-118 | writing a non-air state never fires `onRemoved` |
| NeighborUpdates.UsedFlags | src/main/java/minecraft/server/world/ServerWorld.java:139-148 | the guards as written: at most three flags are collected, each one of the three constants, and every flag whose guard `(flags \| F) != 0` holds is collected; AllFlagsAlwaysUsed shows that is all three |
| NeighborUpdates.UpdateNeighbors | src/main/java/minecraft/server/world/ServerWorld.java:138-155 | updateNeighbors as written makes exactly 18 deliveries; what they are is stated by UpdateNeighborsDelivers and UpdateNeighborsExactlyOnce |
| NeighborUpdates.UpdateNeighborsMasked | src/main/java/minecraft/server/world/ServerWorld.java:138-155 | updateNeighbors with bit-test guards makes six deliveries per requested kind, at most 18; which ones is stated by UpdateNeighborsMaskedDelivers |
| NeighborUpdates.DeliveryPointsBack | src/main/java/minecraft/server/world/ServerWorld.java:151-153 | a delivery in direction `d` reaches `pos.offset(d)`, carries that cell's current state and the triggering state, and its `d.getOpposite()` leads back to `pos` and differs from `d` |
| NeighborUpdates.UpdateNeighbor | src/main/java/minecraft/server/world/ServerWorld.java:158-174 | updateNeighbor delivers one callback of the kind its flag names to the state currently at the position, and nothing for an unrecognised flag |
| NeighborUpdates.AllFlagsAlwaysUsed | src/main/java/minecraft/server/world/ServerWorld.java:139-148 | as written, the collected flags are always block, state, inventory, in that order, whatever flags the caller passed |
| NeighborUpdates.FanDirectionsShape | src/main/java/minecraft/server/world/ServerWorld.java:151-153 | the inner loop delivers one callback per direction, in list order, to the neighbour at `pos.offset(dir)` with `dir.getOpposite()` |
| NeighborUpdates.FanOutShape | src/main/java/minecraft/server/world/ServerWorld.java:150-154 | the nested loop yields six deliveries per collected flag: delivery `6i + j` is flag i's in direction j |
| NeighborUpdates.UpdateNeighborsDelivers | src/main/java/minecraft/server/world/ServerWorld.java:138-155 | as written, updateNeighbors makes exactly 18 deliveries, six per kind, each carrying the neighbour's current state, the reversed direction and the unchanged triggering state |
| NeighborUpdates.DeliveriesDistinct | src/main/java/minecraft/server/world/ServerWorld.java:150-153 | deliveries for different (kind, direction) pairs differ |
| NeighborUpdates.UpdateNeighborsCovers | src/main/java/minecraft/server/world/ServerWorld.java:138-155 | every (kind, direction) pair is among the deliveries |
| NeighborUpdates.UpdateNeighborsDistinctAt | src/main/java/minecraft/server/world/ServerWorld.java:138-155 | two different slots of the 18 hold different deliveries |
| NeighborUpdates.UpdateNeighborsExactlyOnce | src/main/java/minecraft/server/world/ServerWorld.java:138-155 | each (kind, direction) pair is delivered exactly once |
| NeighborUpdates.FanOutContainsKind | src/main/java/minecraft/server/world/ServerWorld.java:150-154 | every collected kind reaches every direction |
| NeighborUpdates.FanOutOnlyKinds | src/main/java/minecraft/server/world/ServerWorld.java:150-154 | every delivery is a neighbour update of a collected kind |
| NeighborUpdates.FanOutContains | src/main/java/minecraft/server/world/ServerWorld.java:150-154 | a delivery appears iff its kind was collected |
| NeighborUpdates.MaskedKinds | src/main/java/minecraft/server/world/ServerWorld.java:139-148 | with bit-test guards, exactly the kinds whose bit is requested are collected, in the order block, state, inventory |
| NeighborUpdates.UpdateNeighborsMaskedDelivers | src/main/java/minecraft/server/world/ServerWorld.java:138-155 | with bit-test guards, a (kind, direction) delivery appears iff that kind's bit was requested, with six deliveries per requested kind |
| NeighborUpdates.BlockOnlyRequestStillStateUpdates | src/main/java/minecraft/server/world/ServerWorld.java:140-148 | with one-bit flag constants, a request for block updates alone still makes 18 deliveries, state updates among them, as written; the bit-test guard makes 6 and no state update |
| Power.GetPowerExcept | src/main/java/minecraft/server/world/ServerWorld.java:182-200 | the result is at least 0 and at least the power of every neighbour that is not excluded and whose output flags meet the requested ones. It is 0 or equal to the power of one such neighbour |
| Power.GetPower | src/main/java/minecraft/server/world/ServerWorld.java:177-179 | the same maximum with no direction excluded |
| TreeGrowth.TreeHeight | src/main/java/minecraft/server/world/ServerWorld.java:73 | a tree is 5 to 7 levels tall |
| TreeGrowth.TrunkHeight | src/main/java/minecraft/server/world/ServerWorld.java:74 | the level leaves start above is at least 1 and at least the tree height minus 5, and is one of the two |
| TreeGrowth.SquareIsProduct | src/main/java/minecraft/server/world/ServerWorld.java:88 | the squared offsets of the crown test are the products the source computes |
| TreeGrowth.Place | src/main/java/minecraft/server/world/ServerWorld.java:87-101 | one tree write leaves its cell as the air test says and changes no other cell. A leaf attempt on a cell that is not air fires nothing; otherwise the callbacks are setBlockState's with updates, all at the written cell. A non-air block fires no `onRemoved`, and fires `onAdded` exactly when the cell held air |
| TreeGrowth.PlaceAll | src/main/java/minecraft/server/world/ServerWorld.java:78-105 | a sequence of tree writes adds or removes no chunk |
| TreeGrowth.PlaceAllAt | src/main/java/minecraft/server/world/ServerWorld.java:78-105 | each cell ends as the writes aimed at it, applied in order, leave it; writes elsewhere do not affect it |
| TreeGrowth.PlaceAllEventsSound | src/main/java/minecraft/server/world/ServerWorld.java:78-105 | every callback of a run of non-air writes is at a cell some write aims at, carries that write's state, and is an `onAdded` only where the cell held air |
| TreeGrowth.PlaceAllNoRemovals | src/main/java/minecraft/server/world/ServerWorld.java:78-105 | writes of non-air blocks fire only added and replaced callbacks |
| TreeGrowth.PlaceAllAdds | src/main/java/minecraft/server/world/ServerWorld.java:78-105 | an air cell fires `onAdded` for the first non-air block aimed at it |
| TreeGrowth.CrownRowAt | src/main/java/minecraft/server/world/ServerWorld.java:83-92 | one crown row tries a leaf at exactly the cells of the row that pass the distance test |
| TreeGrowth.CrownLayerAt | src/main/java/minecraft/server/world/ServerWorld.java:82-94 | one crown layer tries a leaf at exactly the cells of the 7x7 square that pass the distance test |
| TreeGrowth.LevelLeavesAt | src/main/java/minecraft/server/world/ServerWorld.java:79-95 | a level tries leaves only above the trunk height, at the crown cells of that level |
| TreeGrowth.LevelLogAt | src/main/java/minecraft/server/world/ServerWorld.java:97-102 | a level below the top writes one log, on the origin column |
| TreeGrowth.LevelPlanAt | src/main/java/minecraft/server/world/ServerWorld.java:78-104 | a level writes at a cell at most one leaf and then at most one log, as the crown and trunk tests say |
| TreeGrowth.TreePlanAt | src/main/java/minecraft/server/world/ServerWorld.java:78-105 | over all levels, a cell receives a leaf attempt iff it is in the crown, followed by a log iff it is on the trunk |
| TreeGrowth.TreePlanNoAir | src/main/java/minecraft/server/world/ServerWorld.java:78-105 | growTree writes only logs and leaves, so none of its writes is air |
| TreeGrowth.GrowTree | src/main/java/minecraft/server/world/ServerWorld.java:72-106 | growTree adds or removes no chunk; the cells it leaves are stated by GrowTreeShape, its callbacks by GrowTreeAdds (those that must fire) and GrowTreeEventsSound (nothing else fires) |
| TreeGrowth.GrowTreeShape | src/main/java/minecraft/server/world/ServerWorld.java:72-106 | after growTree every trunk cell holds a log, overwriting anything. Every other crown cell that held air holds leaves. Every other cell, and every non-air crown cell, is unchanged. No chunk is added or removed |
| TreeGrowth.GrowTreeNoRemovals | src/main/java/minecraft/server/world/ServerWorld.java:72-106 | growTree never fires `onRemoved` |
| TreeGrowth.GrowTreeAdds | src/main/java/minecraft/server/world/ServerWorld.java:72-106 | every crown cell that held air fires `onAdded` for its leaf. Every trunk cell outside the crown that held air fires it for its log |
| TreeGrowth.GrowTreeEventsSound | src/main/java/minecraft/server/world/ServerWorld.java:72-106 | every callback of growTree is an added or state-replaced callback for leaves on a crown cell or a log on a trunk cell, and an `onAdded` only where the cell held air; a blocked leaf attempt fires nothing |
| Population.ColumnDraws | src/main/java/minecraft/server/world/ServerWorld.java:53-62 | a column consumes two draws, or three when a plant is placed |
| Population.PopulateColumn | src/main/java/minecraft/server/world/ServerWorld.java:49-66 | with `y` one above the column's highest point, a zero on `nextInt(80)` grows a tree at `y`, firing exactly growTree's callbacks, and then writes dirt at `y - 1` without updates; the world is exactly that. Otherwise a zero on `nextInt(20)` writes the drawn plant at `y` and nothing else. Any other roll changes nothing and fires nothing. No chunk is added or removed, and the draws left are the ones after this column's |
| Population.PopulateColumnTree | src/main/java/minecraft/server/world/ServerWorld.java:53-58 | after a tree column, the cell below the trunk's base holds dirt and every other cell holds what growTree's shape gives it |
| Population.PopulateColumns | src/main/java/minecraft/server/world/ServerWorld.java:49-68 | the columns are populated in order, each against the world the previous ones left; no chunk is added or removed, and the draws consumed are those of the columns in turn |
| Population.Rows | src/main/java/minecraft/server/world/ServerWorld.java:49-50 | the column loop visits `width` columns per row of `z` |
| Population.ChunkColumns | src/main/java/minecraft/server/world/ServerWorld.java:44-50 | a chunk's footprint has `CHUNK_SIZE * CHUNK_SIZE` columns |
| Population.PopulateChunk | src/main/java/minecraft/server/world/ServerWorld.java:41-69 | populateChunk adds or removes no chunk and consumes the draws of its columns in turn |
| Population.RowsAt | src/main/java/minecraft/server/world/ServerWorld.java:49-50 | step `b * width + a` of the nested loop visits column `(x0 + a, z + b)` |
| Population.ChunkColumnAt | src/main/java/minecraft/server/world/ServerWorld.java:44-50 | column `(x0 + a, z0 + b)` of a chunk is visited at step `b * CHUNK_SIZE + a`: every column of the footprint once, rows of constant `z` in turn |
| Population.PopulateColumnsNoRemovals | src/main/java/minecraft/server/world/ServerWorld.java:53-66 | population fires only the callbacks of the trees it grows, so never `onRemoved` |
| Population.NoTreeNoEvents | src/main/java/minecraft/server/world/ServerWorld.java:58-65 | dirt and plants are written without neighbour updates: when no tree is rolled, nothing fires |
| Population.ColumnsRollsSplit | src/main/java/minecraft/server/world/ServerWorld.java:49-53 | the draws for `a + b` columns are those for `a` columns followed by those for `b` more |
| Generation.ChunkIndexInGrid | src/main/java/minecraft/server/world/ServerWorld.java:29-33 | every grid chunk's slot `cz * CHUNKS_X + cx` lies inside the chunk array |
| Generation.ChunkIndexInjective | src/main/java/minecraft/server/world/ServerWorld.java:29-33 | different grid chunks have different slots |
| Generation.PlaceChunks | src/main/java/minecraft/server/world/ServerWorld.java:28-35 | the placement loops fill exactly `CHUNKS_X * CHUNKS_Z` slots, each with the grid chunk whose slot it is |
| Generation.PlacedAt | src/main/java/minecraft/server/world/ServerWorld.java:28-35 | every grid chunk is stored at its slot |
| Generation.PopulateChunks | src/main/java/minecraft/server/world/ServerWorld.java:37-38 | populating a list of chunks one after another adds or removes no chunk, never fires `onRemoved`, and consumes the draws of every column in turn |
| Generation.PopulateAll | src/main/java/minecraft/server/world/ServerWorld.java:37-38 | the indexed population loop yields exactly the world, callbacks and draws of PopulateChunks: populateChunk on each array slot in order, each against what the previous ones left |
| Generation.GenerateWorld | src/main/java/minecraft/server/world/ServerWorld.java:25-39 | generateWorld places every grid chunk at its slot, then its world and callbacks are exactly those of populating the chunk array in slot order. Every block of every grid chunk is still present afterwards, `onRemoved` never fires, and the draws of every column of the world are consumed |
| RandomTicks.SampleChunk | src/main/java/minecraft/server/world/ServerWorld.java:217-225 | a flagged chunk is sampled RANDOM_TICK_SPEED times, each sample inside the chunk's block box and consuming three draws in order: sample `k` sits at x offset `draws[3k]`, height `draws[3k+1]` and z offset `draws[3k+2]` from the chunk's corner. The callbacks are the random updates of the samples whose block takes them |
| RandomTicks.TickChunks | src/main/java/minecraft/server/world/ServerWorld.java:212-228 | every sample lies in a flagged chunk and inside it, each consumes three draws from the front, and the callbacks are those of the samples in order |
| RandomTicks.PerformRandomUpdates | src/main/java/minecraft/server/world/ServerWorld.java:210-229 | every sample lies inside a flagged grid chunk, the callbacks are exactly the samples' random updates, and three draws are consumed per sample |
| RandomTicks.UpdatesFor | src/main/java/minecraft/server/world/ServerWorld.java:222-225 | the callbacks of a list of samples are random updates only, at most one per sample; UpdatesForComplete and UpdatesForSound pin down which |
| RandomTicks.UpdatesForComplete | src/main/java/minecraft/server/world/ServerWorld.java:222-225 | every sample whose block takes random updates receives one, with the state stored there |
| RandomTicks.UpdatesForSound | src/main/java/minecraft/server/world/ServerWorld.java:222-225 | every callback fired is a random update of a sampled position, delivered to the state stored there, whose block takes random updates |
| RandomTicks.TickChunksCount | src/main/java/minecraft/server/world/ServerWorld.java:212-219 | a flagged chunk is sampled RANDOM_TICK_SPEED times per visit and an unflagged one never |
| RandomTicks.TickOrderOnce | src/main/java/minecraft/server/world/ServerWorld.java:212-213 | the chunk loops visit every grid chunk exactly once and nothing else |
| RandomTicks.TickOrderOrdered | src/main/java/minecraft/server/world/ServerWorld.java:212-213 | the chunk loops run `chunkX` outer and `chunkZ` inner |
| RandomTicks.SampleChunkListed | src/main/java/minecraft/server/world/ServerWorld.java:212-219 | every sample is drawn in one of the chunks visited |
| RandomTicks.TickChunksInOrder | src/main/java/minecraft/server/world/ServerWorld.java:212-228 | chunks visited in order yield their samples in that order, each chunk's together |
| RandomTicks.RandomTicksPerChunk | src/main/java/minecraft/server/world/ServerWorld.java:210-229 | per tick, a grid chunk is sampled RANDOM_TICK_SPEED times when it exists and has random-update blocks and never otherwise; nothing outside the grid is sampled |
| RandomTicks.RandomTicksInOrder | src/main/java/minecraft/server/world/ServerWorld.java:210-229 | a tick samples chunk by chunk, `chunkX` outer and `chunkZ` inner |
| PacketCodec.U16LeRoundTrip | src/main/java/minecraft/common/net/packet/PacketCodec.java:49 | a 16-bit value written little-endian reads back unsigned as itself |
| PacketCodec.ShortBitsRoundTrip | src/main/java/minecraft/common/net/packet/PacketCodec.java:41 | a `short` written little-endian reads back as itself |
| PacketCodec.Create | src/main/java/minecraft/common/net/packet/PacketCodec.java:75-78 | an endpoint decodes with its own side's registry and encodes with the opposite side's |
| PacketCodec.CreatePairsRegistries | src/main/java/minecraft/common/net/packet/PacketCodec.java:75-78 | an endpoint's encoder and its peer's decoder use the same registry, in both directions |
| PacketCodec.Encode | src/main/java/minecraft/common/net/packet/PacketCodec.java:33-50 | with checks on, encoding fails exactly for an unregistered packet (`NotInRegistry`) or a body over `0xFFFF` bytes (`LengthExceedsMaximum`). Otherwise the frame is four header bytes and then the body. The header reads back as the body length mod 2^16 and then the packet's outbound id |
| PacketCodec.Decode | src/main/java/minecraft/common/net/packet/PacketCodec.java:53-73 | decode as written: it defers exactly when fewer than 4 bytes, or fewer than `length + 2`, are readable. Anything emitted is the whole frame at the reader, its registered kind and exact body, with the reader moved past it. An unknown-id error names a peeked id absent from the registry. A body underflow happens only with less than a whole frame buffered. A whole frame is never deferred |
| PacketCodec.DecodeComplete | src/main/java/minecraft/common/net/packet/PacketCodec.java:53-73 | decode waiting for whole frames: it defers exactly when less than a whole frame is buffered, its only error is an unknown id, and anything emitted is the whole frame at the reader |
| PacketCodec.DecodeDefersWithoutHeader | src/main/java/minecraft/common/net/packet/PacketCodec.java:54 | with fewer than four readable bytes, decode emits nothing and reads nothing |
| PacketCodec.DecodeNeverExceedsMaximum | src/main/java/minecraft/common/net/packet/PacketCodec.java:55-57 | the declared length is read unsigned, so the over-maximum error is never raised |
| PacketCodec.DecodeWholeFrame | src/main/java/minecraft/common/net/packet/PacketCodec.java:59-70 | with a whole frame buffered and its id registered, decode consumes exactly `4 + length` bytes and emits the registered kind with exactly the declared body bytes |
| PacketCodec.DecodeUnknownId | src/main/java/minecraft/common/net/packet/PacketCodec.java:59-66 | once `length + 2` bytes are readable (below that decode defers), an id unknown to the inbound registry is an `UnknownPacket` error and nothing is emitted |
| PacketCodec.DecodeProceedsTwoBytesEarly | src/main/java/minecraft/common/net/packet/PacketCodec.java:59-68 | as written, with a known id and the frame one or two bytes short, decode does not defer and the body slice fails. Waiting for the whole frame defers |
| PacketCodec.DecodeUnderflowExample | src/main/java/minecraft/common/net/packet/PacketCodec.java:59-68 | a frame with a one-byte body, only its header buffered: decode as written fails, decoding whole frames defers |
| PacketCodec.EncodeDecodeRoundTrip | src/main/java/minecraft/common/net/packet/PacketCodec.java:33-78 | what one endpoint encodes, its peer decodes: the same kind, a byte-identical body, and exactly the frame's bytes consumed, whatever precedes or follows it |
| PacketCodec.DecodeCompleteDefersOnPrefix | src/main/java/minecraft/common/net/packet/PacketCodec.java:54-59 | waiting for whole frames, any strict prefix of a frame decodes to nothing, so partial arrival emits nothing before completeness |
| PacketCodec.DecodeFailsOnShortPrefix | src/main/java/minecraft/common/net/packet/PacketCodec.java:59-68 | as written, a peer's frame with at least two body bytes, cut two bytes short, fails instead of deferring |
| PacketCodec.EncodeUncheckedTruncatesLength | src/main/java/minecraft/common/net/packet/PacketCodec.java:45-49 | with checks off, an over-long body is encoded with its length cut to 16 bits, declaring less than was written |

## Left out

- **Terrain synthesis:** the diamond-square noise and each chunk's own `generateChunk` come from classes that are not part of this model. Their outcome is the input world of `Generation.GenerateWorld`, and the draws they consume come before its `rolls`.
- **Chunk queries:** `getHighestPoint` is a parameter of population (`Population.HighestPoint`), read against the current world. `WorldChunk.hasRandomUpdates`, including a missing chunk, is the parameter `RandomTicks.TickEnv.chunkHasRandomUpdates`. Whether a block takes random updates is `hasRandomUpdate`. Their implementations are not part of this model.
- **Chunk writes:** `WorldChunk.setBlockState` is not part of this model. It is assumed to report a change exactly when the stored state differs.
- **Block callbacks:** `onRemoved`, `onAdded`, `onStateReplaced`, the neighbour updates and `onRandomUpdate` are recorded and not executed. So any re-entrant writes and any draws they make from the world's random generator are not modelled. In particular, random ticks assume no callback draws between samples.
- **Power callbacks:** `getOutputPowerFlags` and the neighbour's `getPower` are parameters (`Power.PowerCallbacks`).
- **Randomness:** `java.util.Random` is not modelled. Its draws are an explicit sequence, each in the range of its `nextInt` call.
- **Direction order:** `Direction`'s declaration order and offsets are not part of this model. The order Down, Up, North, South, West, East and the usual unit offsets are assumed.
- **Flag constants:** the values of the three update flags are not part of this model. They are parameters that are assumed nonzero and pairwise distinct. A mask is modelled as the set of its one bits.
- **Block states:** a block state is its block and its index in that block's state tree. The property system (`withProperty`, the state tree's construction) is not part of this model. The plant block's `type` index is the plant type's position in `PlantType.TYPES`. `PlantType` is not part of this model: the order Grass, ForgetMeNot, Marigold, Daisy of `Blocks.PLANT_TYPES` is assumed.
- **Tree loops:** `growTree`'s nested loops are modelled as the list of writes they attempt, in loop order, applied one by one. The leaf air test is made when a write's turn comes, as in the source.
- **Integer range:** coordinates and loop counters are unbounded integers. No Java `int` overflow occurs at the world sizes involved.
- **Netty:** `ByteBuf` internals, `ChannelHandlerContext`, the decode loop of `ByteToMessageDecoder` and the connection's reaction to a thrown error are not modelled. A decode call is one step on a buffer. An exception is a `Failed` result whose reader index is not modelled.
- PacketCodec.Encode: with checks off, an unregistered packet is excluded by the precondition. What the registry returns as its id is defined in `SupplierRegistry`, which is not part of this model.
- **Packet bodies:** each packet's own `encode`/`decode` is not modelled. A packet is its kind and the bytes its encoder writes, and decoding hands exactly those bytes back.
- **Registries:** `PacketRegistries.getRegistry` is the parameter `registries` of `PacketCodec.Create`.

## Findings

| source | as written | input that shows it | evidently intended | confidence | as-written member | corrected member |
|---|---|---|---|---|---|---|
| src/main/java/minecraft/server/world/ServerWorld.java:140-148 | each guard is `(flags \| F) != 0`, which holds for any nonzero flag constant, so all three kinds are dispatched whatever `flags` is | flags = BLOCK_UPDATE_FLAG alone, with one-bit constants: 18 deliveries including state and inventory updates | `(flags & F) != 0`: dispatch only the requested kinds, six deliveries each | not executed | NeighborUpdates.BlockOnlyRequestStillStateUpdates | NeighborUpdates.UpdateNeighborsMaskedDelivers |
| src/main/java/minecraft/common/net/packet/PacketCodec.java:59 | waits until `length + 2` bytes are readable, but a whole frame is `length + 4`; with 1 or 2 bytes missing the body slice fails instead of the decoder waiting | bytes `[1, 0, 0, 0]`: a frame with a one-byte body whose body has not arrived yet; decode fails with an underflow | wait until `length + 4` bytes (HEADER_BYTE_SIZE + length) are readable | not executed | PacketCodec.DecodeUnderflowExample | PacketCodec.DecodeCompleteDefersOnPrefix |

=== FILE: bits.dfy ===
/**
 * A Java `int` used as a bit mask, represented by the set of positions of its one bits.
 * Bitwise OR is union, bitwise AND is intersection, and a mask is nonzero when the set
 * is nonempty.
 */
module Bits {

  type Mask = s: set<nat> | forall i :: i in s ==> i < 32

  function Or(a: Mask, b: Mask): (r: Mask)
    ensures forall i :: i in r <==> i in a || i in b
  {
    a + b
  }

  function And(a: Mask, b: Mask): (r: Mask)
    ensures forall i :: i in r <==> i in a && i in b
  {
    a * b
  }

  /** The mask of a single bit, `1 << i`. */
  function Bit(i: nat): (r: Mask)
    requires i < 32
    ensures i in r && forall j :: j in r ==> j == i
  {
    {i}
  }

  /** OR-ing in a nonzero mask gives a nonzero mask, whatever the other operand. */
  lemma OrNonzero(a: Mask, b: Mask)
    requires b != {}
    ensures Or(a, b) != {}
  {
    var i :| i in b;
    assert i in Or(a, b);
  }
}

=== FILE: blocks.dfy ===
/** Block types and immutable block states (a block plus its property values). */
module Blocks {

  /** The block types the world rules name; every other registered block is `Other`. */
  datatype Block = Air | Dirt | Leaves | WoodLog | Plant | Other(id: nat)

  /** The four values of the plant block's `type` property. */
  datatype PlantType = Grass | ForgetMeNot | Marigold | Daisy

  /** The domain of the plant `type` property, in declaration order. */
  const PLANT_TYPES: seq<PlantType> := [Grass, ForgetMeNot, Marigold, Daisy]

  /**
   * A block state: the block and the state's index in that block's state tree, the
   * dense table of its property combinations. The plant block has one property,
   * `type`, so its index is the index of its plant type.
   */
  datatype BlockState = BlockState(block: Block, props: nat) {
    predicate IsAir() { block == Air }
    predicate IsOf(b: Block) { block == b }
  }

  /** The state a block is placed in when no property is specified: the first of its state tree. */
  function DefaultState(b: Block): (s: BlockState)
    ensures s.block == b && s.props == 0
  {
    BlockState(b, 0)
  }

  const AIR: BlockState := DefaultState(Air)

  /** The position of a plant type in the property domain. */
  function PlantIndex(t: PlantType): (i: nat)
    ensures i < |PLANT_TYPES| && PLANT_TYPES[i] == t
  {
    match t
    case Grass => 0
    case ForgetMeNot => 1
    case Marigold => 2
    case Daisy => 3
  }

  /** The plant block's default state with its `type` property changed to `t`. */
  function PlantState(t: PlantType): (s: BlockState)
    ensures s.block == Plant
    ensures s.props < |PLANT_TYPES| && PLANT_TYPES[s.props] == t
  {
    DefaultState(Plant).(props := PlantIndex(t))
  }

  /** Distinct plant types give distinct states: the property change is never lost. */
  lemma PlantStateInjective(t1: PlantType, t2: PlantType)
    ensures PlantState(t1) == PlantState(t2) <==> t1 == t2
  {
    if PlantState(t1) == PlantState(t2) {
      assert PLANT_TYPES[PlantState(t1).props] == t1;
    }
  }
}

=== FILE: generation.dfy ===
/**
 * generateWorld: place every chunk into the flat chunk array, then populate them in
 * array order.
 *
 * Terrain synthesis (the diamond-square noise and each chunk's own generation) is not
 * modelled: its outcome is the input world `terrain`, and `rolls` are the draws left
 * after it.
 */
module Generation {
  import opened WorldModel
  import opened TreeGrowth
  import opened Population
  import opened Grid

  /** The slot of chunk `c` in the flat array: rows of constant `z`, `x` inside a row. */
  function ChunkIndex(cfg: Config, c: ChunkPos): int
  {
    c.z * cfg.chunksX + c.x
  }

  /** Every grid chunk's slot lies inside the array. */
  lemma ChunkIndexInGrid(cfg: Config, c: ChunkPos)
    requires cfg.Valid() && InGrid(cfg, c)
    ensures 0 <= ChunkIndex(cfg, c) < cfg.chunksX * cfg.chunksZ
  {
    if c.z > 0 {
      MulAtLeast(c.z, cfg.chunksX);
    }
    if c.z < cfg.chunksZ - 1 {
      RowStartsApart(c.z, cfg.chunksZ - 1, cfg.chunksX);
    }
    assert (cfg.chunksZ - 1) * cfg.chunksX + cfg.chunksX == cfg.chunksX * cfg.chunksZ;
  }

  /** Different grid chunks have different slots. */
  lemma ChunkIndexInjective(cfg: Config, c1: ChunkPos, c2: ChunkPos)
    requires cfg.Valid() && InGrid(cfg, c1) && InGrid(cfg, c2)
    requires ChunkIndex(cfg, c1) == ChunkIndex(cfg, c2)
    ensures c1 == c2
  {
    if c1.z < c2.z {
      RowStartsApart(c1.z, c2.z, cfg.chunksX);
    } else if c2.z < c1.z {
      RowStartsApart(c2.z, c1.z, cfg.chunksX);
    }
  }

  /**
   * The placement loops of generateWorld: `cz` outer, `cx` inner, each new chunk
   * stored at the next free slot.
   */
  method PlaceChunks(cfg: Config) returns (chunks: seq<ChunkPos>)
    requires cfg.Valid()
    ensures |chunks| == cfg.chunksX * cfg.chunksZ
    ensures forall i :: 0 <= i < |chunks| ==> InGrid(cfg, chunks[i]) && ChunkIndex(cfg, chunks[i]) == i
  {
    chunks := [];
    var cz := 0;
    while cz < cfg.chunksZ
      invariant 0 <= cz <= cfg.chunksZ
      invariant |chunks| == cz * cfg.chunksX
      invariant forall i :: 0 <= i < |chunks| ==> InGrid(cfg, chunks[i]) && ChunkIndex(cfg, chunks[i]) == i
    {
      var cx := 0;
      while cx < cfg.chunksX
        invariant 0 <= cx <= cfg.chunksX
        invariant |chunks| == cz * cfg.chunksX + cx
        invariant forall i :: 0 <= i < |chunks| ==> InGrid(cfg, chunks[i]) && ChunkIndex(cfg, chunks[i]) == i
      {
        chunks := chunks + [ChunkPos(cx, cz)];
        cx := cx + 1;
      }
      assert cz * cfg.chunksX + cfg.chunksX == (cz + 1) * cfg.chunksX;
      cz := cz + 1;
    }
  }

  /** Every grid chunk sits at slot `cz * CHUNKS_X + cx` of a placement array. */
  lemma PlacedAt(cfg: Config, chunks: seq<ChunkPos>, c: ChunkPos)
    requires cfg.Valid() && InGrid(cfg, c)
    requires |chunks| == cfg.chunksX * cfg.chunksZ
    requires forall i :: 0 <= i < |chunks| ==> InGrid(cfg, chunks[i]) && ChunkIndex(cfg, chunks[i]) == i
    ensures 0 <= ChunkIndex(cfg, c) < |chunks| && chunks[ChunkIndex(cfg, c)] == c
  {
    ChunkIndexInGrid(cfg, c);
    var i := ChunkIndex(cfg, c);
    ChunkIndexInjective(cfg, chunks[i], c);
  }

  /** The columns of the whole world, chunk by chunk. */
  function WorldColumns(cfg: Config): (n: nat)
    requires cfg.Valid()
    ensures n == cfg.chunksX * cfg.chunksZ * (cfg.chunkSize * cfg.chunkSize)
  {
    TimesIsProduct(cfg.chunksX * cfg.chunksZ, cfg.chunkSize * cfg.chunkSize);
    Times(cfg.chunksX * cfg.chunksZ, cfg.chunkSize * cfg.chunkSize)
  }

  lemma NoRemovalsConcat(a: seq<Event>, b: seq<Event>)
    requires NoRemovals(a) && NoRemovals(b)
    ensures NoRemovals(a + b)
  {
  }

  /**
   * The reference for generateWorld's population loop: populateChunk on each chunk of
   * the list in turn, each against the world and draws the previous ones left.
   */
  function PopulateChunks(w: World, highestPoint: HighestPoint, cfg: Config, chunks: seq<ChunkPos>, rolls: seq<int>): (r: Populated)
    requires cfg.Valid()
    requires ColumnsRollsOk(rolls, Times(|chunks|, cfg.chunkSize * cfg.chunkSize))
    ensures r.world.Keys == w.Keys
    ensures NoRemovals(r.events)
    ensures r.rest == ColumnsRest(rolls, Times(|chunks|, cfg.chunkSize * cfg.chunkSize))
    decreases |chunks|
  {
    if chunks == [] then Populated(w, [], rolls)
    else
      var k := cfg.chunkSize * cfg.chunkSize;
      ColumnsRollsSplit(rolls, k, Times(|chunks| - 1, k));
      var first := PopulateChunk(w, highestPoint, cfg, chunks[0], rolls);
      PopulateColumnsNoRemovals(w, highestPoint, ChunkColumns(cfg, chunks[0]), rolls);
      var more := PopulateChunks(first.world, highestPoint, cfg, chunks[1..], first.rest);
      NoRemovalsConcat(first.events, more.events);
      Populated(more.world, first.events + more.events, more.rest)
  }

  /** Populating a non-empty list is populating its first chunk, then the rest with what that left. */
  lemma PopulateChunksCons(w: World, highestPoint: HighestPoint, cfg: Config, chunks: seq<ChunkPos>, rolls: seq<int>)
    requires cfg.Valid() && chunks != []
    requires ColumnsRollsOk(rolls, Times(|chunks|, cfg.chunkSize * cfg.chunkSize))
    ensures ColumnsRollsOk(rolls, cfg.chunkSize * cfg.chunkSize)
    ensures var first := PopulateChunk(w, highestPoint, cfg, chunks[0], rolls);
            && ColumnsRollsOk(first.rest, Times(|chunks| - 1, cfg.chunkSize * cfg.chunkSize))
            && var more := PopulateChunks(first.world, highestPoint, cfg, chunks[1..], first.rest);
               PopulateChunks(w, highestPoint, cfg, chunks, rolls) == Populated(more.world, first.events + more.events, more.rest)
  {
    ColumnsRollsSplit(rolls, cfg.chunkSize * cfg.chunkSize, Times(|chunks| - 1, cfg.chunkSize * cfg.chunkSize));
  }

  /** One iteration of the population loop keeps it on course for the reference result. */
  lemma PopulateStep(highestPoint: HighestPoint, cfg: Config, chunks: seq<ChunkPos>, i: nat,
                     world: World, events: seq<Event>, rest: seq<int>, target: Populated)
    requires cfg.Valid() && i < |chunks|
    requires ColumnsRollsOk(rest, Times(|chunks| - i, cfg.chunkSize * cfg.chunkSize))
    requires var r := PopulateChunks(world, highestPoint, cfg, chunks[i..], rest);
             r.world == target.world && events + r.events == target.events && r.rest == target.rest
    ensures ColumnsRollsOk(rest, cfg.chunkSize * cfg.chunkSize)
    ensures var r := PopulateChunk(world, highestPoint, cfg, chunks[i], rest);
            && ColumnsRollsOk(r.rest, Times(|chunks| - (i + 1), cfg.chunkSize * cfg.chunkSize))
            && var s := PopulateChunks(r.world, highestPoint, cfg, chunks[i + 1..], r.rest);
               s.world == target.world && (events + r.events) + s.events == target.events && s.rest == target.rest
  {
    PopulateChunksCons(world, highestPoint, cfg, chunks[i..], rest);
    assert chunks[i..][0] == chunks[i] && chunks[i..][1..] == chunks[i + 1..];
    var r := PopulateChunk(world, highestPoint, cfg, chunks[i], rest);
    var s := PopulateChunks(r.world, highestPoint, cfg, chunks[i + 1..], r.rest);
    assert events + (r.events + s.events) == (events + r.events) + s.events;
  }

  /**
   * The population loop of generateWorld, over the chunk array by index: it yields the
   * world, callbacks and draws of populating the chunks one after another.
   */
  method PopulateAll(cfg: Config, terrain: World, highestPoint: HighestPoint, chunks: seq<ChunkPos>, rolls: seq<int>)
    returns (world: World, events: seq<Event>, rest: seq<int>)
    requires cfg.Valid()
    requires ColumnsRollsOk(rolls, Times(|chunks|, cfg.chunkSize * cfg.chunkSize))
    ensures var r := PopulateChunks(terrain, highestPoint, cfg, chunks, rolls);
            world == r.world && events == r.events && rest == r.rest
  {
    var k := cfg.chunkSize * cfg.chunkSize;
    ghost var target := PopulateChunks(terrain, highestPoint, cfg, chunks, rolls);
    world, events, rest := terrain, [], rolls;
    var i := 0;
    while i < |chunks|
      invariant i <= |chunks|
      invariant ColumnsRollsOk(rest, Times(|chunks| - i, k))
      invariant var r := PopulateChunks(world, highestPoint, cfg, chunks[i..], rest);
                r.world == target.world && events + r.events == target.events && r.rest == target.rest
    {
      PopulateStep(highestPoint, cfg, chunks, i, world, events, rest, target);
      var r := PopulateChunk(world, highestPoint, cfg, chunks[i], rest);
      world, events, rest := r.world, events + r.events, r.rest;
      i := i + 1;
    }
    assert chunks[i..] == [];
    assert events + [] == events;
  }

  /**
   * generateWorld after terrain: every grid chunk is placed at its slot, then the
   * chunks are populated in array order. The terrain holds every chunk's block box, so
   * all chunks exist before the first is populated, and population keeps them all.
   */
  method GenerateWorld(cfg: Config, terrain: World, highestPoint: HighestPoint, rolls: seq<int>)
    returns (chunks: seq<ChunkPos>, world: World, events: seq<Event>, rest: seq<int>)
    requires cfg.Valid()
    requires forall c, p :: InGrid(cfg, c) && InChunk(cfg, c, p) ==> p in terrain
    requires ColumnsRollsOk(rolls, WorldColumns(cfg))
    ensures |chunks| == cfg.chunksX * cfg.chunksZ
    ensures forall c :: InGrid(cfg, c) ==> 0 <= ChunkIndex(cfg, c) < |chunks| && chunks[ChunkIndex(cfg, c)] == c
    ensures var r := PopulateChunks(terrain, highestPoint, cfg, chunks, rolls);
            world == r.world && events == r.events
    ensures forall c, p :: InGrid(cfg, c) && InChunk(cfg, c, p) ==> p in world
    ensures NoRemovals(events)
    ensures rest == ColumnsRest(rolls, WorldColumns(cfg))
  {
    chunks := PlaceChunks(cfg);
    forall c | InGrid(cfg, c)
      ensures 0 <= ChunkIndex(cfg, c) < |chunks| && chunks[ChunkIndex(cfg, c)] == c
    {
      PlacedAt(cfg, chunks, c);
    }
    world, events, rest := PopulateAll(cfg, terrain, highestPoint, chunks, rolls);
  }
}

=== FILE: geometry.dfy ===
/** Block positions and the six axis-aligned directions of the neighbour graph. */
module Geometry {

  /** An integer block position in world space. */
  datatype Pos = Pos(x: int, y: int, z: int)

  /** The six unit directions. */
  datatype Direction = Down | Up | North | South | West | East

  /** The iteration order of Direction.DIRECTIONS. */
  const DIRECTIONS: seq<Direction> := [Down, Up, North, South, West, East]

  /** The position of `d` in DIRECTIONS. */
  function DirectionIndex(d: Direction): (i: nat)
    ensures i < |DIRECTIONS| && DIRECTIONS[i] == d
  {
    match d
    case Down => 0
    case Up => 1
    case North => 2
    case South => 3
    case West => 4
    case East => 5
  }

  function Opposite(d: Direction): (r: Direction)
  {
    match d
    case Down => Up
    case Up => Down
    case North => South
    case South => North
    case West => East
    case East => West
  }

  function DX(d: Direction): int { if d == West then -1 else if d == East then 1 else 0 }
  function DY(d: Direction): int { if d == Down then -1 else if d == Up then 1 else 0 }
  function DZ(d: Direction): int { if d == North then -1 else if d == South then 1 else 0 }

  /** The neighbouring position one step from `p` towards `d`. */
  function Offset(p: Pos, d: Direction): (r: Pos)
  {
    Pos(p.x + DX(d), p.y + DY(d), p.z + DZ(d))
  }

  /** Opposite is an involution without fixed points. */
  lemma OppositeInvolution(d: Direction)
    ensures Opposite(Opposite(d)) == d
    ensures Opposite(d) != d
  {
  }

  /** Stepping towards `d` and then towards its opposite returns to the start. */
  lemma OffsetOpposite(p: Pos, d: Direction)
    ensures Offset(Offset(p, d), Opposite(d)) == p
  {
  }

  /** The six neighbours of a position are pairwise distinct. */
  lemma OffsetInjective(p: Pos, d1: Direction, d2: Direction)
    ensures Offset(p, d1) == Offset(p, d2) <==> d1 == d2
  {
  }

  /** DIRECTIONS lists every direction exactly once. */
  lemma DirectionsComplete(d: Direction)
    ensures d in DIRECTIONS
    ensures forall i, j :: 0 <= i < j < |DIRECTIONS| ==> DIRECTIONS[i] != DIRECTIONS[j]
  {
  }
}

=== FILE: grid.dfy ===
/** Multiplication facts for row-major grid indices, kept out of the nonlinear solver. */
module Grid {
  /**
   * `n * width` as repeated addition, so that the row-major index proofs stay within
   * linear arithmetic; TimesIsProduct connects it to multiplication.
   */
  function Times(n: nat, width: nat): nat
  {
    if n == 0 then 0 else width + Times(n - 1, width)
  }

  lemma {:induction false} TimesIsProduct(n: nat, width: nat)
    ensures Times(n, width) == n * width
  {
    if n > 0 {
      TimesIsProduct(n - 1, width);
    }
  }

  lemma {:induction false} MulAtLeast(d: int, width: int)
    requires d >= 1 && width > 0
    decreases d
    ensures d * width >= width
  {
    if d > 1 {
      MulAtLeast(d - 1, width);
      assert d * width == (d - 1) * width + width;
    }
  }

  /** A later row starts at least a full row further on. */
  lemma RowStartsApart(a: int, b: int, width: int)
    requires a < b && width > 0
    ensures a * width + width <= b * width
  {
    MulAtLeast(b - a, width);
    assert b * width == a * width + (b - a) * width;
  }
}

=== FILE: neighbors.dfy ===
/**
 * Six-direction neighbour notification: updateNeighbors and updateNeighbor.
 *
 * The flag constants are parameters. The flag guard of updateNeighbors is modelled as
 * written, with bitwise OR, so every kind is dispatched whatever `flags` holds; the
 * masked variant below is the guard with bitwise AND.
 */
module NeighborUpdates {
  import opened Geometry
  import opened Blocks
  import opened WorldModel
  import opened Bits

  /** The values of BLOCK_UPDATE_FLAG, STATE_UPDATE_FLAG and INVENTORY_UPDATE_FLAG. */
  datatype Flags = Flags(blockUpdate: Mask, stateUpdate: Mask, inventoryUpdate: Mask) {
    /** Nonzero, and distinct as the switch of updateNeighbor requires. */
    predicate Valid() {
      && blockUpdate != {} && stateUpdate != {} && inventoryUpdate != {}
      && blockUpdate != stateUpdate && blockUpdate != inventoryUpdate && stateUpdate != inventoryUpdate
    }

    function FlagOf(k: UpdateKind): Mask {
      match k
      case BlockUpdate => blockUpdate
      case StateUpdate => stateUpdate
      case InventoryUpdate => inventoryUpdate
    }
  }

  /** The order in which updateNeighbors collects the kinds. */
  const KINDS: seq<UpdateKind> := [BlockUpdate, StateUpdate, InventoryUpdate]

  function KindIndex(k: UpdateKind): (i: nat)
    ensures i < |KINDS| && KINDS[i] == k
  {
    match k
    case BlockUpdate => 0
    case StateUpdate => 1
    case InventoryUpdate => 2
  }

  /** The callback `updateNeighbor` delivers for kind `k` from the neighbour in direction `d`. */
  function Delivery(w: World, pos: Pos, state: BlockState, k: UpdateKind, d: Direction): Event
  {
    var target := Offset(pos, d);
    NeighborUpdate(k, target, Opposite(d), GetBlockState(w, target), state)
  }

  /**
   * updateNeighbor: the switch on `flag` delivers one callback of the matching kind to
   * the state currently at `pos`, and nothing for an unrecognised flag.
   */
  function UpdateNeighbor(w: World, pos: Pos, fromDir: Direction, neighborState: BlockState, flag: Mask, f: Flags): (r: seq<Event>)
    requires f.Valid()
    ensures |r| <= 1
    ensures |r| == 1 <==> flag in {f.blockUpdate, f.stateUpdate, f.inventoryUpdate}
    ensures forall k :: flag == f.FlagOf(k) ==> r == [NeighborUpdate(k, pos, fromDir, GetBlockState(w, pos), neighborState)]
  {
    var state := GetBlockState(w, pos);
    if flag == f.blockUpdate then [NeighborUpdate(BlockUpdate, pos, fromDir, state, neighborState)]
    else if flag == f.stateUpdate then [NeighborUpdate(StateUpdate, pos, fromDir, state, neighborState)]
    else if flag == f.inventoryUpdate then [NeighborUpdate(InventoryUpdate, pos, fromDir, state, neighborState)]
    else []
  }

  /** The flags updateNeighbors collects, with its guards `(flags | F) != 0` as written. */
  function UsedFlags(flags: Mask, f: Flags): (used: seq<Mask>)
    ensures |used| <= 3
    ensures forall m :: m in used ==> m in [f.blockUpdate, f.stateUpdate, f.inventoryUpdate]
    ensures forall k :: Or(flags, f.FlagOf(k)) != {} ==> f.FlagOf(k) in used
  {
    (if Or(flags, f.blockUpdate) != {} then [f.blockUpdate] else [])
    + (if Or(flags, f.stateUpdate) != {} then [f.stateUpdate] else [])
    + (if Or(flags, f.inventoryUpdate) != {} then [f.inventoryUpdate] else [])
  }

  /** The guards with bitwise AND: a kind is collected only when its bit is requested. */
  function MaskedFlags(flags: Mask, f: Flags): seq<Mask>
  {
    (if And(flags, f.blockUpdate) != {} then [f.blockUpdate] else [])
    + (if And(flags, f.stateUpdate) != {} then [f.stateUpdate] else [])
    + (if And(flags, f.inventoryUpdate) != {} then [f.inventoryUpdate] else [])
  }

  /** One updateNeighbor call per direction, in DIRECTIONS order, for one flag. */
  function FanDirections(w: World, pos: Pos, state: BlockState, flag: Mask, f: Flags, dirs: seq<Direction>): seq<Event>
    requires f.Valid()
  {
    if dirs == [] then []
    else UpdateNeighbor(w, Offset(pos, dirs[0]), Opposite(dirs[0]), state, flag, f)
         + FanDirections(w, pos, state, flag, f, dirs[1..])
  }

  /** The nested loop of updateNeighbors: flags outer, directions inner. */
  function FanOut(w: World, pos: Pos, state: BlockState, used: seq<Mask>, f: Flags): seq<Event>
    requires f.Valid()
  {
    if used == [] then []
    else FanDirections(w, pos, state, used[0], f, DIRECTIONS) + FanOut(w, pos, state, used[1..], f)
  }

  /** updateNeighbors as written. */
  function UpdateNeighbors(w: World, pos: Pos, state: BlockState, flags: Mask, f: Flags): (r: seq<Event>)
    requires f.Valid()
    ensures |r| == 18
  {
    AllFlagsAlwaysUsed(flags, f);
    FanOutShape(w, pos, state, UsedFlags(flags, f), KINDS, f);
    FanOut(w, pos, state, UsedFlags(flags, f), f)
  }

  /** updateNeighbors with the guards as bit tests. */
  function UpdateNeighborsMasked(w: World, pos: Pos, state: BlockState, flags: Mask, f: Flags): (r: seq<Event>)
    requires f.Valid()
    ensures |r| == 6 * |MaskedKinds(flags, f)| <= 18
  {
    FanOutShape(w, pos, state, MaskedFlags(flags, f), MaskedKinds(flags, f), f);
    FanOut(w, pos, state, MaskedFlags(flags, f), f)
  }

  /** The OR guards always hold: every kind is used, in the order block, state, inventory. */
  lemma AllFlagsAlwaysUsed(flags: Mask, f: Flags)
    requires f.Valid()
    ensures UsedFlags(flags, f) == [f.blockUpdate, f.stateUpdate, f.inventoryUpdate]
  {
    OrNonzero(flags, f.blockUpdate);
    OrNonzero(flags, f.stateUpdate);
    OrNonzero(flags, f.inventoryUpdate);
  }

  /** For one recognised flag, the fan-out delivers that kind to each listed direction, in order. */
  lemma {:induction false} FanDirectionsShape(w: World, pos: Pos, state: BlockState, k: UpdateKind, f: Flags, dirs: seq<Direction>)
    requires f.Valid()
    ensures var r := FanDirections(w, pos, state, f.FlagOf(k), f, dirs);
            && |r| == |dirs|
            && forall j :: 0 <= j < |dirs| ==> r[j] == Delivery(w, pos, state, k, dirs[j])
  {
    if dirs != [] {
      FanDirectionsShape(w, pos, state, k, f, dirs[1..]);
    }
  }

  /** The fan-out over a list of recognised flags: six deliveries per flag, flags in list order. */
  lemma {:induction false} FanOutShape(w: World, pos: Pos, state: BlockState, used: seq<Mask>, kinds: seq<UpdateKind>, f: Flags)
    requires f.Valid()
    requires |used| == |kinds| && forall i :: 0 <= i < |kinds| ==> used[i] == f.FlagOf(kinds[i])
    ensures var r := FanOut(w, pos, state, used, f);
            && |r| == 6 * |kinds|
            && forall i, j :: 0 <= i < |kinds| && 0 <= j < 6 ==> r[6 * i + j] == Delivery(w, pos, state, kinds[i], DIRECTIONS[j])
  {
    if kinds != [] {
      FanDirectionsShape(w, pos, state, kinds[0], f, DIRECTIONS);
      FanOutShape(w, pos, state, used[1..], kinds[1..], f);
      var head := FanDirections(w, pos, state, used[0], f, DIRECTIONS);
      var rest := FanOut(w, pos, state, used[1..], f);
      assert FanOut(w, pos, state, used, f) == head + rest;
      forall i, j | 0 <= i < |kinds| && 0 <= j < 6
        ensures (head + rest)[6 * i + j] == Delivery(w, pos, state, kinds[i], DIRECTIONS[j])
      {
        if i == 0 {
          assert (head + rest)[j] == head[j];
        } else {
          var k := 6 * (i - 1) + j;
          assert 6 * i + j == 6 + k;
          assert (head + rest)[6 + k] == rest[k];
          assert kinds[i] == kinds[1..][i - 1];
        }
      }
    }
  }

  /**
   * Neighbour fan-out as written: 18 updateNeighbor deliveries whatever `flags` is,
   * six per kind in the order block, state, inventory, each to the neighbour
   * `pos.offset(dir)` with `dir.getOpposite()`, that neighbour's current state and
   * the unchanged triggering state.
   */
  lemma UpdateNeighborsDelivers(w: World, pos: Pos, state: BlockState, flags: Mask, f: Flags)
    requires f.Valid()
    ensures var r := UpdateNeighbors(w, pos, state, flags, f);
            && |r| == 18
            && forall i, j :: 0 <= i < 3 && 0 <= j < 6 ==> r[6 * i + j] == Delivery(w, pos, state, KINDS[i], DIRECTIONS[j])
  {
    AllFlagsAlwaysUsed(flags, f);
    FanOutShape(w, pos, state, UsedFlags(flags, f), KINDS, f);
  }

  /** Deliveries of different (kind, direction) pairs differ: in kind, or in the neighbour they reach. */
  lemma DeliveriesDistinct(w: World, pos: Pos, state: BlockState, k1: UpdateKind, d1: Direction, k2: UpdateKind, d2: Direction)
    requires k1 != k2 || d1 != d2
    ensures Delivery(w, pos, state, k1, d1) != Delivery(w, pos, state, k2, d2)
  {
    OffsetInjective(pos, d1, d2);
  }

  /**
   * A delivery reaches the neighbour towards `d` and names the direction leading back
   * to `pos`, which is not `d` itself.
   */
  lemma DeliveryPointsBack(w: World, pos: Pos, state: BlockState, k: UpdateKind, d: Direction)
    ensures var e := Delivery(w, pos, state, k, d);
            && e.NeighborUpdate? && e.kind == k && e.pos == Offset(pos, d)
            && Offset(e.pos, e.fromDir) == pos
            && Opposite(e.fromDir) == d && e.fromDir != d
            && e.state == GetBlockState(w, e.pos) && e.neighborState == state
  {
    OffsetOpposite(pos, d);
    OppositeInvolution(d);
  }

  /** Every (kind, direction) pair is among the 18 deliveries. */
  lemma UpdateNeighborsCovers(w: World, pos: Pos, state: BlockState, flags: Mask, f: Flags, k: UpdateKind, d: Direction)
    requires f.Valid()
    ensures Delivery(w, pos, state, k, d) in UpdateNeighbors(w, pos, state, flags, f)
  {
    var r := UpdateNeighbors(w, pos, state, flags, f);
    UpdateNeighborsDelivers(w, pos, state, flags, f);
    var i, j := KindIndex(k), DirectionIndex(d);
    assert r[6 * i + j] == Delivery(w, pos, state, k, d);
  }

  /** Two different slots of the 18 hold different deliveries. */
  lemma UpdateNeighborsDistinctAt(w: World, pos: Pos, state: BlockState, flags: Mask, f: Flags, a: nat, b: nat)
    requires f.Valid()
    requires a < b < 18
    ensures var r := UpdateNeighbors(w, pos, state, flags, f);
            |r| == 18 && r[a] != r[b]
  {
    var r := UpdateNeighbors(w, pos, state, flags, f);
    UpdateNeighborsDelivers(w, pos, state, flags, f);
    var ia, ja := a / 6, a % 6;
    var ib, jb := b / 6, b % 6;
    assert a == 6 * ia + ja && b == 6 * ib + jb;
    assert r[a] == Delivery(w, pos, state, KINDS[ia], DIRECTIONS[ja]);
    assert r[b] == Delivery(w, pos, state, KINDS[ib], DIRECTIONS[jb]);
    if ia == ib {
      DirectionsComplete(DIRECTIONS[ja]);
      DeliveriesDistinct(w, pos, state, KINDS[ia], DIRECTIONS[ja], KINDS[ib], DIRECTIONS[jb]);
    } else {
      assert KINDS[ia] != KINDS[ib];
    }
  }

  /** The 18 deliveries are pairwise distinct and cover every pair, so each (kind, direction) pair is delivered exactly once. */
  lemma UpdateNeighborsExactlyOnce(w: World, pos: Pos, state: BlockState, flags: Mask, f: Flags)
    requires f.Valid()
    ensures var r := UpdateNeighbors(w, pos, state, flags, f);
            && (forall k, d :: Delivery(w, pos, state, k, d) in r)
            && (forall a, b :: 0 <= a < b < |r| ==> r[a] != r[b])
  {
    var r := UpdateNeighbors(w, pos, state, flags, f);
    UpdateNeighborsDelivers(w, pos, state, flags, f);
    forall k, d ensures Delivery(w, pos, state, k, d) in r {
      UpdateNeighborsCovers(w, pos, state, flags, f, k, d);
    }
    forall a, b | 0 <= a < b < |r| ensures r[a] != r[b] {
      UpdateNeighborsDistinctAt(w, pos, state, flags, f, a, b);
    }
  }

  /** Every kind among the used flags is delivered in every direction. */
  lemma FanOutContainsKind(w: World, pos: Pos, state: BlockState, used: seq<Mask>, kinds: seq<UpdateKind>, f: Flags, i: nat, d: Direction)
    requires f.Valid()
    requires |used| == |kinds| && forall i :: 0 <= i < |kinds| ==> used[i] == f.FlagOf(kinds[i])
    requires i < |kinds|
    ensures Delivery(w, pos, state, kinds[i], d) in FanOut(w, pos, state, used, f)
  {
    FanOutShape(w, pos, state, used, kinds, f);
    var j := DirectionIndex(d);
    assert FanOut(w, pos, state, used, f)[6 * i + j] == Delivery(w, pos, state, kinds[i], d);
  }

  /** Every delivery of a fan-out is of a kind among the used flags. */
  lemma FanOutOnlyKinds(w: World, pos: Pos, state: BlockState, used: seq<Mask>, kinds: seq<UpdateKind>, f: Flags, a: nat)
    requires f.Valid()
    requires |used| == |kinds| && forall i :: 0 <= i < |kinds| ==> used[i] == f.FlagOf(kinds[i])
    requires a < |FanOut(w, pos, state, used, f)|
    ensures FanOut(w, pos, state, used, f)[a].NeighborUpdate? && FanOut(w, pos, state, used, f)[a].kind in kinds
  {
    FanOutShape(w, pos, state, used, kinds, f);
    var i, j := a / 6, a % 6;
    assert a == 6 * i + j && 0 <= i < |kinds| && 0 <= j < 6;
    assert FanOut(w, pos, state, used, f)[6 * i + j] == Delivery(w, pos, state, kinds[i], DIRECTIONS[j]);
  }

  /** A delivery appears in a fan-out exactly when its kind is among the used flags. */
  lemma FanOutContains(w: World, pos: Pos, state: BlockState, used: seq<Mask>, kinds: seq<UpdateKind>, f: Flags, k: UpdateKind, d: Direction)
    requires f.Valid()
    requires |used| == |kinds| && forall i :: 0 <= i < |kinds| ==> used[i] == f.FlagOf(kinds[i])
    ensures Delivery(w, pos, state, k, d) in FanOut(w, pos, state, used, f) <==> k in kinds
  {
    var r := FanOut(w, pos, state, used, f);
    var e := Delivery(w, pos, state, k, d);
    if k in kinds {
      var i :| 0 <= i < |kinds| && kinds[i] == k;
      FanOutContainsKind(w, pos, state, used, kinds, f, i, d);
    }
    if e in r {
      var a :| 0 <= a < |r| && r[a] == e;
      FanOutOnlyKinds(w, pos, state, used, kinds, f, a);
    }
  }

  /** The kinds whose bit is set in `flags`, in the order the masked guard collects them. */
  function MaskedKinds(flags: Mask, f: Flags): (ks: seq<UpdateKind>)
    ensures |ks| == |MaskedFlags(flags, f)|
    ensures forall i :: 0 <= i < |ks| ==> MaskedFlags(flags, f)[i] == f.FlagOf(ks[i])
    ensures forall k :: k in ks <==> And(flags, f.FlagOf(k)) != {}
  {
    (if And(flags, f.blockUpdate) != {} then [BlockUpdate] else [])
    + (if And(flags, f.stateUpdate) != {} then [StateUpdate] else [])
    + (if And(flags, f.inventoryUpdate) != {} then [InventoryUpdate] else [])
  }

  /**
   * The masked guard: a kind's six deliveries appear exactly when its bit is in `flags`,
   * six deliveries per requested kind.
   */
  lemma UpdateNeighborsMaskedDelivers(w: World, pos: Pos, state: BlockState, flags: Mask, f: Flags, k: UpdateKind, d: Direction)
    requires f.Valid()
    ensures Delivery(w, pos, state, k, d) in UpdateNeighborsMasked(w, pos, state, flags, f) <==> And(flags, f.FlagOf(k)) != {}
    ensures |UpdateNeighborsMasked(w, pos, state, flags, f)| == 6 * |MaskedKinds(flags, f)|
  {
    var kinds := MaskedKinds(flags, f);
    FanOutShape(w, pos, state, MaskedFlags(flags, f), kinds, f);
    FanOutContains(w, pos, state, MaskedFlags(flags, f), kinds, f, k, d);
  }

  /** Flag constants with one bit each, as the masked guard presumes. */
  const ONE_BIT_FLAGS: Flags := Flags(Bit(0), Bit(1), Bit(2))

  /**
   * The OR guard against the AND guard: a caller asking only for block updates still
   * causes state updates as written, and none with the masked guard.
   */
  lemma BlockOnlyRequestStillStateUpdates(w: World, pos: Pos, state: BlockState)
    ensures ONE_BIT_FLAGS.Valid()
    ensures Delivery(w, pos, state, StateUpdate, Up) in UpdateNeighbors(w, pos, state, ONE_BIT_FLAGS.blockUpdate, ONE_BIT_FLAGS)
    ensures Delivery(w, pos, state, StateUpdate, Up) !in UpdateNeighborsMasked(w, pos, state, ONE_BIT_FLAGS.blockUpdate, ONE_BIT_FLAGS)
    ensures |UpdateNeighbors(w, pos, state, ONE_BIT_FLAGS.blockUpdate, ONE_BIT_FLAGS)| == 18
    ensures |UpdateNeighborsMasked(w, pos, state, ONE_BIT_FLAGS.blockUpdate, ONE_BIT_FLAGS)| == 6
  {
    var f := ONE_BIT_FLAGS;
    UpdateNeighborsExactlyOnce(w, pos, state, f.blockUpdate, f);
    UpdateNeighborsDelivers(w, pos, state, f.blockUpdate, f);
    UpdateNeighborsMaskedDelivers(w, pos, state, f.blockUpdate, f, StateUpdate, Up);
    assert MaskedFlags(f.blockUpdate, f) == [f.blockUpdate];
  }
}

=== FILE: packet_codec.dfy ===
/**
 * The length-prefixed frame codec between the two network endpoints.
 *
 * A frame is `[length: u16 LE][id: i16 LE][body: length bytes]`. The encoder looks the
 * packet's id up in the outbound registry; the decoder peeks at the header, waits
 * until enough bytes are buffered, and creates the packet from the inbound registry.
 * A byte buffer is a byte sequence plus a reader index; each registry is a pair of
 * maps (the packet kind an id creates, the id a kind is registered under); a packet
 * is its kind and the bytes its own `encode` writes.
 */
module PacketCodec {
  import opened Wrappers

  type Byte = b: int | 0 <= b < 256

  /** A Java `short`. */
  type Short = s: int | -0x8000 <= s < 0x8000

  const LENGTH_BYTE_SIZE: nat := 2
  const IDENTIFIER_BYTE_SIZE: nat := 2
  const HEADER_BYTE_SIZE: nat := LENGTH_BYTE_SIZE + IDENTIFIER_BYTE_SIZE
  const MAXIMUM_PACKET_LENGTH: nat := 0xFFFF

  // ----- Sixteen-bit little-endian fields -----

  /** The two bytes, low first, of an unsigned 16-bit value. */
  function U16Le(v: nat): (b: seq<Byte>)
    requires v < 0x1_0000
    ensures |b| == 2
  {
    [v % 256, v / 256]
  }

  /** The unsigned value of two bytes, low first (`getUnsignedShortLE`). */
  function U16FromLe(lo: Byte, hi: Byte): (v: nat)
    ensures v <= MAXIMUM_PACKET_LENGTH
  {
    lo + 256 * hi
  }

  /** The 16-bit pattern of a `short` (two's complement). */
  function ShortBits(s: Short): (v: nat)
    ensures v < 0x1_0000
  {
    if s < 0 then s + 0x1_0000 else s
  }

  /** The `short` a 16-bit pattern reads back as (`readShortLE`). */
  function BitsShort(v: nat): Short
    requires v < 0x1_0000
  {
    if v >= 0x8000 then v - 0x1_0000 else v
  }

  lemma U16LeRoundTrip(v: nat)
    requires v < 0x1_0000
    ensures U16FromLe(U16Le(v)[0], U16Le(v)[1]) == v
  {
  }

  lemma ShortBitsRoundTrip(s: Short)
    ensures BitsShort(ShortBits(s)) == s
  {
  }

  // ----- Registries and endpoints -----

  /** A packet: its kind (the packet class) and the body bytes its own encoder writes. */
  datatype Packet = Packet(kind: nat, body: seq<Byte>)

  /**
   * A packet registry: `kinds[id]` is the kind `createNewElement(id)` instantiates,
   * `ids[kind]` the id `getIdentifier` returns. The two agree.
   */
  datatype Registry = Registry(kinds: map<Short, nat>, ids: map<nat, Short>) {
    predicate Valid() {
      && (forall id :: id in kinds ==> kinds[id] in ids && ids[kinds[id]] == id)
      && (forall k :: k in ids ==> ids[k] in kinds && kinds[ids[k]] == k)
    }

    /** `containsElement`. */
    predicate Contains(p: Packet) {
      p.kind in ids
    }
  }

  datatype Side = Client | Server

  function Opposite(side: Side): (o: Side)
    ensures o != side
  {
    match side
    case Client => Server
    case Server => Client
  }

  /** A codec instance: the registry it decodes with and the one it encodes with. */
  datatype Codec = Codec(inbound: Registry, outbound: Registry)

  /**
   * `create(side)`: decode with the registry of `side` and encode with that of the
   * opposite side, so that what one endpoint sends is what its peer expects.
   */
  function Create(side: Side, registries: Side -> Registry): (c: Codec)
    ensures c.inbound == registries(side)
    ensures c.outbound == registries(Opposite(side))
  {
    Codec(registries(side), registries(Opposite(side)))
  }

  /** The peer's decoder uses exactly the registry this endpoint encodes with. */
  lemma CreatePairsRegistries(side: Side, registries: Side -> Registry)
    ensures Create(Opposite(side), registries).inbound == Create(side, registries).outbound
    ensures Create(side, registries).inbound == Create(Opposite(side), registries).outbound
  {
    assert Opposite(Opposite(side)) == side by {
      match side
      case Client =>
      case Server =>
    }
  }

  // ----- Encoding -----

  datatype EncodeError = NotInRegistry(packet: Packet) | LengthExceedsMaximum(length: nat)

  /**
   * encode: with `checks` (DebugUtil.PERFORM_CHECKS) an unregistered packet and an
   * over-long body are errors; without them the body length is cast to `short`,
   * keeping its low 16 bits. An unregistered packet without checks is not modelled.
   */
  function Encode(codec: Codec, checks: bool, packet: Packet): (r: Result<seq<Byte>, EncodeError>)
    requires checks || codec.outbound.Contains(packet)
    ensures r.Failure? <==>
              checks && (!codec.outbound.Contains(packet) || |packet.body| > MAXIMUM_PACKET_LENGTH)
    ensures r.Failure? && !codec.outbound.Contains(packet) ==> r.error == NotInRegistry(packet)
    ensures r.Failure? && codec.outbound.Contains(packet) ==> r.error == LengthExceedsMaximum(|packet.body|)
    ensures r.Success? ==>
              && |r.value| == HEADER_BYTE_SIZE + |packet.body|
              && U16FromLe(r.value[0], r.value[1]) == |packet.body| % 0x1_0000
              && BitsShort(U16FromLe(r.value[2], r.value[3])) == codec.outbound.ids[packet.kind]
              && r.value[HEADER_BYTE_SIZE..] == packet.body
  {
    if checks && !codec.outbound.Contains(packet) then
      Failure(NotInRegistry(packet))
    else
      var id := codec.outbound.ids[packet.kind];
      var length := |packet.body|;
      if checks && length > MAXIMUM_PACKET_LENGTH then
        Failure(LengthExceedsMaximum(length))
      else
        U16LeRoundTrip(length % 0x1_0000);
        U16LeRoundTrip(ShortBits(id));
        ShortBitsRoundTrip(id);
        Success(U16Le(length % 0x1_0000) + U16Le(ShortBits(id)) + packet.body)
  }

  // ----- Decoding -----

  /** A receive buffer: the bytes arrived so far and how many of them have been read. */
  datatype Buffer = Buffer(bytes: seq<Byte>, reader: nat) {
    predicate Valid() { reader <= |bytes| }

    function Readable(): nat
      requires Valid()
    {
      |bytes| - reader
    }
  }

  datatype DecodeError =
    | DeclaredLengthExceedsMaximum(length: nat)
    | UnknownPacket(id: Short)
    /** `readSlice` asked for more bytes than are buffered. */
    | BodyUnderflow(length: nat)

  /** One decode call: nothing yet, one packet and the new reader index, or an error. */
  datatype Decoded = Deferred | Emitted(packet: Packet, reader: nat) | Failed(error: DecodeError)

  /** The declared body length, peeked without moving the reader. */
  function PeekLength(buf: Buffer): nat
    requires buf.Valid() && buf.Readable() >= HEADER_BYTE_SIZE
  {
    U16FromLe(buf.bytes[buf.reader], buf.bytes[buf.reader + 1])
  }

  /** The packet id following the length field. */
  function PeekId(buf: Buffer): Short
    requires buf.Valid() && buf.Readable() >= HEADER_BYTE_SIZE
  {
    BitsShort(U16FromLe(buf.bytes[buf.reader + 2], buf.bytes[buf.reader + 3]))
  }

  /** The packet and reader index that decoding the frame at the reader yields. */
  function Frame(codec: Codec, buf: Buffer): Decoded
    requires buf.Valid() && buf.Readable() >= HEADER_BYTE_SIZE
    requires buf.Readable() >= HEADER_BYTE_SIZE + PeekLength(buf)
    requires PeekId(buf) in codec.inbound.kinds
  {
    var start := buf.reader + HEADER_BYTE_SIZE;
    var end := start + PeekLength(buf);
    Emitted(Packet(codec.inbound.kinds[PeekId(buf)], buf.bytes[start..end]), end)
  }

  /**
   * `r` is the whole frame at the reader: its length field fits in the buffer, its id
   * is registered, the packet is that id's kind with exactly the declared body bytes,
   * and the reader moves past the frame.
   */
  predicate EmitsFrame(codec: Codec, buf: Buffer, r: Decoded)
    requires buf.Valid() && r.Emitted?
  {
    && buf.Readable() >= HEADER_BYTE_SIZE
    && buf.Readable() >= HEADER_BYTE_SIZE + PeekLength(buf)
    && PeekId(buf) in codec.inbound.kinds
    && r.packet.kind == codec.inbound.kinds[PeekId(buf)]
    && r.reader == buf.reader + HEADER_BYTE_SIZE + PeekLength(buf)
    && r.packet.body == buf.bytes[buf.reader + HEADER_BYTE_SIZE..r.reader]
  }

  /**
   * decode as written: wait for the 4 header bytes, then (the length being unsigned,
   * the over-maximum check never fires) wait for `length + 2` bytes, skip the length,
   * read the id, create the packet, and slice `length` body bytes, which fails when
   * fewer than `length + 4` bytes were buffered.
   */
  function Decode(codec: Codec, buf: Buffer): (r: Decoded)
    requires buf.Valid()
    ensures r.Deferred? <==>
              buf.Readable() < HEADER_BYTE_SIZE || buf.Readable() < PeekLength(buf) + IDENTIFIER_BYTE_SIZE
    ensures r.Emitted? ==> EmitsFrame(codec, buf, r)
    ensures r.Failed? && r.error.UnknownPacket? ==>
              buf.Readable() >= HEADER_BYTE_SIZE && r.error.id == PeekId(buf) && PeekId(buf) !in codec.inbound.kinds
    ensures r.Failed? && r.error.BodyUnderflow? ==>
              buf.Readable() >= HEADER_BYTE_SIZE && buf.Readable() < HEADER_BYTE_SIZE + PeekLength(buf)
    ensures buf.Readable() >= HEADER_BYTE_SIZE && buf.Readable() >= HEADER_BYTE_SIZE + PeekLength(buf) ==> !r.Deferred?
  {
    if buf.Readable() < HEADER_BYTE_SIZE then Deferred
    else
      var length := PeekLength(buf);
      if length > MAXIMUM_PACKET_LENGTH then Failed(DeclaredLengthExceedsMaximum(length))
      else if buf.Readable() < length + IDENTIFIER_BYTE_SIZE then Deferred
      else
        var id := PeekId(buf);
        if id !in codec.inbound.kinds then Failed(UnknownPacket(id))
        else if buf.Readable() - HEADER_BYTE_SIZE < length then Failed(BodyUnderflow(length))
        else Frame(codec, buf)
  }

  /** decode waiting for the whole frame, `length + 4` bytes, before reading anything. */
  function DecodeComplete(codec: Codec, buf: Buffer): (r: Decoded)
    requires buf.Valid()
    ensures r.Emitted? ==> EmitsFrame(codec, buf, r)
    ensures r.Failed? ==>
              buf.Readable() >= HEADER_BYTE_SIZE && r.error == UnknownPacket(PeekId(buf)) && PeekId(buf) !in codec.inbound.kinds
    ensures r.Deferred? <==> buf.Readable() < HEADER_BYTE_SIZE || buf.Readable() < HEADER_BYTE_SIZE + PeekLength(buf)
  {
    if buf.Readable() < HEADER_BYTE_SIZE then Deferred
    else if buf.Readable() < HEADER_BYTE_SIZE + PeekLength(buf) then Deferred
    else if PeekId(buf) !in codec.inbound.kinds then Failed(UnknownPacket(PeekId(buf)))
    else Frame(codec, buf)
  }

  // ----- Decoding properties -----

  /** Fewer than four readable bytes: nothing is read and nothing emitted. */
  lemma DecodeDefersWithoutHeader(codec: Codec, buf: Buffer)
    requires buf.Valid() && buf.Readable() < HEADER_BYTE_SIZE
    ensures Decode(codec, buf) == Deferred
    ensures DecodeComplete(codec, buf) == Deferred
  {
  }

  /** The declared length is read unsigned, so the over-maximum error is never raised. */
  lemma DecodeNeverExceedsMaximum(codec: Codec, buf: Buffer)
    requires buf.Valid()
    ensures !Decode(codec, buf).Failed? || !Decode(codec, buf).error.DeclaredLengthExceedsMaximum?
  {
  }

  /**
   * With a whole frame buffered and its id registered, decode consumes exactly the
   * frame and emits the registered kind with exactly the declared body bytes.
   */
  lemma DecodeWholeFrame(codec: Codec, buf: Buffer)
    requires buf.Valid() && buf.Readable() >= HEADER_BYTE_SIZE
    requires buf.Readable() >= HEADER_BYTE_SIZE + PeekLength(buf)
    requires PeekId(buf) in codec.inbound.kinds
    ensures var r := Decode(codec, buf);
            && r.Emitted?
            && r.reader == buf.reader + HEADER_BYTE_SIZE + PeekLength(buf)
            && r.packet.kind == codec.inbound.kinds[PeekId(buf)]
            && r.packet.body == buf.bytes[buf.reader + HEADER_BYTE_SIZE..r.reader]
    ensures DecodeComplete(codec, buf) == Decode(codec, buf)
  {
  }

  /** An id the inbound registry does not know is an error, once decode gets that far. */
  lemma DecodeUnknownId(codec: Codec, buf: Buffer)
    requires buf.Valid() && buf.Readable() >= HEADER_BYTE_SIZE
    requires PeekId(buf) !in codec.inbound.kinds
    ensures buf.Readable() >= PeekLength(buf) + IDENTIFIER_BYTE_SIZE ==>
              Decode(codec, buf) == Failed(UnknownPacket(PeekId(buf)))
    ensures buf.Readable() >= HEADER_BYTE_SIZE + PeekLength(buf) ==>
              DecodeComplete(codec, buf) == Failed(UnknownPacket(PeekId(buf)))
  {
  }

  /**
   * The wait condition counts the id bytes but not the length bytes: with a known
   * id and the frame one or two bytes short (but the header present), decode does
   * not defer; the body slice fails.
   */
  lemma DecodeProceedsTwoBytesEarly(codec: Codec, buf: Buffer)
    requires buf.Valid() && buf.Readable() >= HEADER_BYTE_SIZE
    requires PeekLength(buf) + IDENTIFIER_BYTE_SIZE <= buf.Readable() < PeekLength(buf) + HEADER_BYTE_SIZE
    requires PeekId(buf) in codec.inbound.kinds
    ensures Decode(codec, buf) == Failed(BodyUnderflow(PeekLength(buf)))
    ensures DecodeComplete(codec, buf) == Deferred
  {
  }

  /** The smallest instance: a frame with a one-byte body, only its header buffered. */
  lemma DecodeUnderflowExample()
    ensures var codec := Codec(Registry(map[0 := 7], map[7 := 0]), Registry(map[], map[]));
            var buf := Buffer([1, 0, 0, 0], 0);
            && Decode(codec, buf) == Failed(BodyUnderflow(1))
            && DecodeComplete(codec, buf) == Deferred
  {
    var codec := Codec(Registry(map[0 := 7], map[7 := 0]), Registry(map[], map[]));
    var buf := Buffer([1, 0, 0, 0], 0);
    assert PeekLength(buf) == 1 && PeekId(buf) == 0;
  }

  /** The header fields of a buffer whose unread part is `rest`. */
  lemma PeekAfter(before: seq<Byte>, rest: seq<Byte>)
    requires |rest| >= HEADER_BYTE_SIZE
    ensures var buf := Buffer(before + rest, |before|);
            && buf.Valid() && buf.Readable() == |rest|
            && PeekLength(buf) == U16FromLe(rest[0], rest[1])
            && PeekId(buf) == BitsShort(U16FromLe(rest[2], rest[3]))
  {
    var bytes := before + rest;
    var n := |before|;
    assert bytes[n] == rest[0] && bytes[n + 1] == rest[1];
    assert bytes[n + 2] == rest[2] && bytes[n + 3] == rest[3];
  }

  // ----- Round trip -----

  /**
   * What one endpoint encodes, its peer decodes: the same kind and byte-identical
   * body, reading exactly the frame whatever precedes or follows it.
   */
  lemma EncodeDecodeRoundTrip(side: Side, registries: Side -> Registry, checks: bool, packet: Packet,
                              before: seq<Byte>, after: seq<Byte>)
    requires registries(Opposite(side)).Valid()
    requires registries(Opposite(side)).Contains(packet)
    requires |packet.body| <= MAXIMUM_PACKET_LENGTH
    ensures var r := Encode(Create(side, registries), checks, packet);
            && r.Success?
            && var buf := Buffer(before + r.value + after, |before|);
               && DecodeComplete(Create(Opposite(side), registries), buf) == Emitted(packet, |before| + |r.value|)
               && Decode(Create(Opposite(side), registries), buf) == Emitted(packet, |before| + |r.value|)
  {
    CreatePairsRegistries(side, registries);
    var sender := Create(side, registries);
    var frame := Encode(sender, checks, packet).value;
    var id := sender.outbound.ids[packet.kind];
    assert sender.outbound.kinds[id] == packet.kind;
    WholeFrameDecodes(Create(Opposite(side), registries), before, frame, after, packet);
  }

  /** A whole frame declaring `packet`'s body length and an id the decoder maps to its kind. */
  lemma WholeFrameDecodes(codec: Codec, before: seq<Byte>, frame: seq<Byte>, after: seq<Byte>, packet: Packet)
    requires |frame| == HEADER_BYTE_SIZE + |packet.body|
    requires U16FromLe(frame[0], frame[1]) == |packet.body|
    requires BitsShort(U16FromLe(frame[2], frame[3])) in codec.inbound.kinds
    requires codec.inbound.kinds[BitsShort(U16FromLe(frame[2], frame[3]))] == packet.kind
    requires frame[HEADER_BYTE_SIZE..] == packet.body
    ensures var buf := Buffer(before + frame + after, |before|);
            && DecodeComplete(codec, buf) == Emitted(packet, |before| + |frame|)
            && Decode(codec, buf) == Emitted(packet, |before| + |frame|)
  {
    PeekAfter(before, frame + after);
    var buf := Buffer(before + (frame + after), |before|);
    assert before + frame + after == buf.bytes;
    var n := |before|;
    assert buf.bytes[n + HEADER_BYTE_SIZE..n + |frame|] == frame[HEADER_BYTE_SIZE..];
    DecodeWholeFrame(codec, buf);
  }

  /**
   * Partial arrival: while only part of a frame is buffered, the complete-frame
   * decoder emits nothing and reads nothing.
   */
  lemma DecodeCompleteDefersOnPrefix(sender: Codec, receiver: Codec, checks: bool, packet: Packet, before: seq<Byte>, k: nat)
    requires checks || sender.outbound.Contains(packet)
    requires Encode(sender, checks, packet).Success?
    requires |packet.body| <= MAXIMUM_PACKET_LENGTH
    requires k < |Encode(sender, checks, packet).value|
    ensures DecodeComplete(receiver, Buffer(before + Encode(sender, checks, packet).value[..k], |before|)) == Deferred
  {
    var frame := Encode(sender, checks, packet).value;
    if k >= HEADER_BYTE_SIZE {
      PeekAfter(before, frame[..k]);
    }
  }

  /**
   * The same partial arrival as written: a frame whose body is at least two bytes,
   * cut two bytes short, is not deferred but fails.
   */
  lemma DecodeFailsOnShortPrefix(side: Side, registries: Side -> Registry, checks: bool, packet: Packet, before: seq<Byte>)
    requires registries(Opposite(side)).Valid()
    requires registries(Opposite(side)).Contains(packet)
    requires 2 <= |packet.body| <= MAXIMUM_PACKET_LENGTH
    ensures var frame := Encode(Create(side, registries), checks, packet).value;
            Decode(Create(Opposite(side), registries), Buffer(before + frame[..|frame| - 2], |before|))
              == Failed(BodyUnderflow(|packet.body|))
  {
    CreatePairsRegistries(side, registries);
    var sender := Create(side, registries);
    var frame := Encode(sender, checks, packet).value;
    var id := sender.outbound.ids[packet.kind];
    assert sender.outbound.kinds[id] == packet.kind;
    ShortFrameFails(Create(Opposite(side), registries), before, frame, |packet.body|);
  }

  /** A frame cut two bytes short, seen by the decoder as written. */
  lemma ShortFrameFails(codec: Codec, before: seq<Byte>, frame: seq<Byte>, length: nat)
    requires 2 <= length && |frame| == HEADER_BYTE_SIZE + length
    requires U16FromLe(frame[0], frame[1]) == length
    requires BitsShort(U16FromLe(frame[2], frame[3])) in codec.inbound.kinds
    ensures Decode(codec, Buffer(before + frame[..|frame| - 2], |before|)) == Failed(BodyUnderflow(length))
  {
    var cut := frame[..|frame| - 2];
    PeekAfter(before, cut);
    DecodeProceedsTwoBytesEarly(codec, Buffer(before + cut, |before|));
  }

  /**
   * Without checks, an over-long body's length is cut to its low 16 bits: the frame
   * declares a different, shorter body than the one written after it.
   */
  lemma EncodeUncheckedTruncatesLength(codec: Codec, packet: Packet)
    requires codec.outbound.Contains(packet)
    requires |packet.body| > MAXIMUM_PACKET_LENGTH
    ensures var r := Encode(codec, false, packet);
            r.Success? && U16FromLe(r.value[0], r.value[1]) < |packet.body|
  {
  }
}

=== FILE: population.dfy ===
/**
 * populateChunk: per column of a chunk's footprint, a tree, a plant or nothing.
 *
 * Columns are visited `z` outer, `x` inner. The random draws are an explicit
 * sequence; each column consumes `nextInt(80)`, then either the tree-height draw of
 * growTree or `nextInt(20)` and, on a zero, the plant-type draw. The column height
 * (`getHighestPoint`) is a parameter reading the world as it stands.
 */
module Population {
  import opened Geometry
  import opened Blocks
  import opened WorldModel
  import opened TreeGrowth
  import opened Grid

  /** A column of a chunk's footprint. */
  datatype Column = Column(x: int, z: int)

  /** The height query of the chunk holding a column, against the current world. */
  type HighestPoint = (World, Column) -> int

  const TREE_CHANCE: int := 80
  const PLANT_CHANCE: int := 20

  /** The draws one column consumes are present and each lies in its `nextInt` range. */
  predicate ColumnRollsOk(rolls: seq<int>)
  {
    && |rolls| >= 2 && 0 <= rolls[0] < TREE_CHANCE
    && if rolls[0] == 0 then 0 <= rolls[1] < 3
       else 0 <= rolls[1] < PLANT_CHANCE && (rolls[1] == 0 ==> |rolls| >= 3 && 0 <= rolls[2] < |PLANT_TYPES|)
  }

  /** How many draws one column consumes. */
  function ColumnDraws(rolls: seq<int>): (n: nat)
    requires ColumnRollsOk(rolls)
    ensures 2 <= n <= 3 && n <= |rolls|
  {
    if rolls[0] != 0 && rolls[1] == 0 then 3 else 2
  }

  /** The draws for `n` columns in a row are present and in range. */
  predicate ColumnsRollsOk(rolls: seq<int>, n: nat)
    decreases n
  {
    n == 0 || (ColumnRollsOk(rolls) && ColumnsRollsOk(rolls[ColumnDraws(rolls)..], n - 1))
  }

  /** The draws left after `n` columns. */
  function ColumnsRest(rolls: seq<int>, n: nat): (rest: seq<int>)
    requires ColumnsRollsOk(rolls, n)
    decreases n
  {
    if n == 0 then rolls else ColumnsRest(rolls[ColumnDraws(rolls)..], n - 1)
  }

  /** No column among the next `n` rolls a tree. */
  predicate NoTreeRolls(rolls: seq<int>, n: nat)
    requires ColumnsRollsOk(rolls, n)
    decreases n
  {
    n == 0 || (rolls[0] != 0 && NoTreeRolls(rolls[ColumnDraws(rolls)..], n - 1))
  }

  /** The outcome of populating: the world, the callbacks fired and the draws left. */
  datatype Populated = Populated(world: World, events: seq<Event>, rest: seq<int>)

  /**
   * One column: with `y` one above the column's highest point, a zero on
   * `nextInt(80)` grows a tree at `y` and then puts dirt at `y - 1`; otherwise a
   * zero on `nextInt(20)` puts a plant of the drawn type at `y`. Both writes skip
   * neighbour updates.
   */
  function PopulateColumn(w: World, highestPoint: HighestPoint, col: Column, rolls: seq<int>): (r: Populated)
    requires ColumnRollsOk(rolls)
    ensures r.rest == rolls[ColumnDraws(rolls)..]
    ensures r.world.Keys == w.Keys
    ensures rolls[0] != 0 ==> r.events == []
    ensures var pos := Pos(col.x, highestPoint(w, col) + 1, col.z);
            rolls[0] == 0 ==> r.events == GrowTree(w, pos, rolls[1]).events
    ensures var pos := Pos(col.x, highestPoint(w, col) + 1, col.z);
            var below := Pos(col.x, highestPoint(w, col), col.z);
            rolls[0] == 0 ==> r.world == SetBlock(GrowTree(w, pos, rolls[1]).world, below, Dirt, false).world
    ensures var below := Pos(col.x, highestPoint(w, col), col.z);
            rolls[0] == 0 && below in w ==> r.world[below] == DefaultState(Dirt)
    ensures var pos := Pos(col.x, highestPoint(w, col) + 1, col.z);
            rolls[0] != 0 && rolls[1] == 0 ==>
              r.world == (if pos in w then w[pos := PlantState(PLANT_TYPES[rolls[2]])] else w)
    ensures rolls[0] != 0 && rolls[1] != 0 ==> r.world == w
  {
    var y := highestPoint(w, col) + 1;
    var pos := Pos(col.x, y, col.z);
    if rolls[0] == 0 then
      var tree := GrowTree(w, pos, rolls[1]);
      GrowTreeShape(w, pos, rolls[1], pos);
      var dirt := SetBlock(tree.world, Pos(col.x, y - 1, col.z), Dirt, false);
      Populated(dirt.world, tree.events + dirt.events, rolls[2..])
    else if rolls[1] == 0 then
      var plant := SetBlockState(w, pos, PlantState(PLANT_TYPES[rolls[2]]), false);
      Populated(plant.world, plant.events, rolls[3..])
    else
      Populated(w, [], rolls[2..])
  }

  /**
   * A tree column leaves every cell but the one below the trunk's base as growTree
   * shapes it, and dirt in that one.
   */
  lemma PopulateColumnTree(w: World, highestPoint: HighestPoint, col: Column, rolls: seq<int>, p: Pos)
    requires ColumnRollsOk(rolls) && rolls[0] == 0
    requires p in w
    ensures var base := Pos(col.x, highestPoint(w, col) + 1, col.z);
            var below := Pos(col.x, highestPoint(w, col), col.z);
            var treeHeight := TreeHeight(rolls[1]);
            PopulateColumn(w, highestPoint, col, rolls).world[p]
              == if p == below then DefaultState(Dirt) else ShapeCell(w, base, treeHeight, TrunkHeight(treeHeight), p)
  {
    var base := Pos(col.x, highestPoint(w, col) + 1, col.z);
    var below := Pos(col.x, highestPoint(w, col), col.z);
    GrowTreeShape(w, base, rolls[1], p);
    DirtAt(GrowTree(w, base, rolls[1]).world, below, p);
  }

  lemma DirtAt(tree: World, below: Pos, p: Pos)
    requires p in tree
    ensures SetBlock(tree, below, Dirt, false).world[p] == if p == below then DefaultState(Dirt) else tree[p]
  {
  }

  /** The columns in order, each against the world and draws the previous ones left. */
  function PopulateColumns(w: World, highestPoint: HighestPoint, cols: seq<Column>, rolls: seq<int>): (r: Populated)
    requires ColumnsRollsOk(rolls, |cols|)
    ensures r.world.Keys == w.Keys
    ensures r.rest == ColumnsRest(rolls, |cols|)
    decreases |cols|
  {
    if cols == [] then Populated(w, [], rolls)
    else
      var first := PopulateColumn(w, highestPoint, cols[0], rolls);
      var rest := PopulateColumns(first.world, highestPoint, cols[1..], first.rest);
      Populated(rest.world, first.events + rest.events, rest.rest)
  }

  /** Row `z` of a footprint: columns `x` to `x1 - 1`. */
  function Row(z: int, x: int, x1: int): (r: seq<Column>)
    requires x <= x1
    ensures |r| == x1 - x
    decreases x1 - x
  {
    if x == x1 then [] else [Column(x, z)] + Row(z, x + 1, x1)
  }

  /** Rows `z` to `z1 - 1` of a footprint, `x0 <= x < x0 + width`. */
  function Rows(z: int, z1: int, x0: int, width: nat): (r: seq<Column>)
    requires z <= z1
    ensures |r| == Times(z1 - z, width)
    decreases z1 - z
  {
    if z == z1 then [] else Row(z, x0, x0 + width) + Rows(z + 1, z1, x0, width)
  }

  /** The columns of chunk `c` in populateChunk's loop order. */
  function ChunkColumns(cfg: Config, c: ChunkPos): (r: seq<Column>)
    requires cfg.Valid()
    ensures |r| == cfg.chunkSize * cfg.chunkSize
  {
    var x0 := c.x * cfg.chunkSize;
    var z0 := c.z * cfg.chunkSize;
    TimesIsProduct(cfg.chunkSize, cfg.chunkSize);
    Rows(z0, z0 + cfg.chunkSize, x0, cfg.chunkSize)
  }

  /** populateChunk: every column of the chunk's footprint, `z` outer, `x` inner. */
  function PopulateChunk(w: World, highestPoint: HighestPoint, cfg: Config, c: ChunkPos, rolls: seq<int>): (r: Populated)
    requires cfg.Valid()
    requires ColumnsRollsOk(rolls, cfg.chunkSize * cfg.chunkSize)
    ensures r.world.Keys == w.Keys
    ensures r.rest == ColumnsRest(rolls, cfg.chunkSize * cfg.chunkSize)
  {
    PopulateColumns(w, highestPoint, ChunkColumns(cfg, c), rolls)
  }

  // ----- Column order -----

  lemma {:induction false} RowAt(z: int, x: int, x1: int, k: int)
    requires x <= x1 && 0 <= k < x1 - x
    decreases x1 - x
    ensures Row(z, x, x1)[k] == Column(x + k, z)
  {
    if k > 0 {
      RowAt(z, x + 1, x1, k - 1);
    }
  }

  lemma {:induction false} RowsAt(z: int, z1: int, x0: int, width: nat, a: int, b: nat)
    requires z <= z1 && 0 <= a < width && b < z1 - z
    decreases z1 - z
    ensures Times(b, width) + a < |Rows(z, z1, x0, width)|
    ensures Rows(z, z1, x0, width)[Times(b, width) + a] == Column(x0 + a, z + b)
  {
    var row := Row(z, x0, x0 + width);
    var rest := Rows(z + 1, z1, x0, width);
    assert Rows(z, z1, x0, width) == row + rest;
    if b == 0 {
      RowAt(z, x0, x0 + width, a);
      assert (row + rest)[a] == row[a];
    } else {
      RowsAt(z + 1, z1, x0, width, a, b - 1);
      var k := Times(b - 1, width) + a;
      assert (row + rest)[width + k] == rest[k];
    }
  }

  /**
   * The column `(x0 + a, z0 + b)` of a chunk is visited at step `b * CHUNK_SIZE + a`:
   * every column of the footprint exactly once, rows of constant `z` in turn.
   */
  lemma ChunkColumnAt(cfg: Config, c: ChunkPos, a: int, b: int)
    requires cfg.Valid()
    requires 0 <= a < cfg.chunkSize && 0 <= b < cfg.chunkSize
    ensures b * cfg.chunkSize + a < |ChunkColumns(cfg, c)|
    ensures ChunkColumns(cfg, c)[b * cfg.chunkSize + a] == Column(c.x * cfg.chunkSize + a, c.z * cfg.chunkSize + b)
  {
    RowsAt(c.z * cfg.chunkSize, c.z * cfg.chunkSize + cfg.chunkSize, c.x * cfg.chunkSize, cfg.chunkSize, a, b);
    TimesIsProduct(b, cfg.chunkSize);
    TimesIsProduct(cfg.chunkSize, cfg.chunkSize);
  }

  // ----- Callbacks -----

  /** Population fires only the callbacks of the trees it grows, so never `onRemoved`. */
  lemma {:induction false} PopulateColumnsNoRemovals(w: World, highestPoint: HighestPoint, cols: seq<Column>, rolls: seq<int>)
    requires ColumnsRollsOk(rolls, |cols|)
    ensures NoRemovals(PopulateColumns(w, highestPoint, cols, rolls).events)
    decreases |cols|
  {
    if cols != [] {
      var first := PopulateColumn(w, highestPoint, cols[0], rolls);
      if rolls[0] == 0 {
        GrowTreeNoRemovals(w, Pos(cols[0].x, highestPoint(w, cols[0]) + 1, cols[0].z), rolls[1]);
      }
      PopulateColumnsNoRemovals(first.world, highestPoint, cols[1..], first.rest);
      var rest := PopulateColumns(first.world, highestPoint, cols[1..], first.rest);
      assert PopulateColumns(w, highestPoint, cols, rolls).events == first.events + rest.events;
    }
  }

  /** Plants and dirt are placed without neighbour updates: with no tree rolled, nothing fires. */
  lemma {:induction false} NoTreeNoEvents(w: World, highestPoint: HighestPoint, cols: seq<Column>, rolls: seq<int>)
    requires ColumnsRollsOk(rolls, |cols|)
    requires NoTreeRolls(rolls, |cols|)
    ensures PopulateColumns(w, highestPoint, cols, rolls).events == []
    decreases |cols|
  {
    if cols != [] {
      var first := PopulateColumn(w, highestPoint, cols[0], rolls);
      NoTreeNoEvents(first.world, highestPoint, cols[1..], first.rest);
    }
  }

  // ----- Draw consumption -----

  /** The draws for `a + b` columns are those for `a` columns followed by those for `b` more. */
  lemma {:induction false} ColumnsRollsSplit(rolls: seq<int>, a: nat, b: nat)
    requires ColumnsRollsOk(rolls, a + b)
    ensures ColumnsRollsOk(rolls, a)
    ensures ColumnsRollsOk(ColumnsRest(rolls, a), b)
    ensures ColumnsRest(ColumnsRest(rolls, a), b) == ColumnsRest(rolls, a + b)
    decreases a
  {
    if a > 0 {
      var tail := rolls[ColumnDraws(rolls)..];
      assert a + b - 1 == (a - 1) + b;
      assert ColumnsRollsOk(tail, (a - 1) + b);
      ColumnsRollsSplit(tail, a - 1, b);
      assert ColumnsRest(rolls, a) == ColumnsRest(tail, a - 1);
      assert ColumnsRest(rolls, a + b) == ColumnsRest(tail, (a - 1) + b);
    }
  }
}

=== FILE: power.dfy ===
/**
 * The one-hop power query: getPowerExcept and getPower.
 *
 * The block callbacks `getOutputPowerFlags` and `getPower` are parameters.
 */
module Power {
  import opened Wrappers
  import opened Geometry
  import opened Blocks
  import opened WorldModel
  import opened Bits

  /** The power callbacks of block states. */
  datatype PowerCallbacks = PowerCallbacks(
    outputPowerFlags: (BlockState, Direction) -> Mask,
    power: (World, BlockState, Pos, Direction, Mask) -> int)

  /** The neighbour towards `d` is asked: `d` is not excluded and its output flags meet `powerFlags`. */
  predicate Qualifies(w: World, pos: Pos, powerFlags: Mask, exceptDir: Option<Direction>, d: Direction, cb: PowerCallbacks)
  {
    && exceptDir != Some(d)
    && And(cb.outputPowerFlags(GetBlockState(w, Offset(pos, d)), d), powerFlags) != {}
  }

  /** The power the neighbour towards `d` reports. */
  function NeighborPower(w: World, pos: Pos, powerFlags: Mask, d: Direction, cb: PowerCallbacks): int
  {
    var neighborPos := Offset(pos, d);
    cb.power(w, GetBlockState(w, neighborPos), neighborPos, d, powerFlags)
  }

  /**
   * getPowerExcept: the maximum power over the qualifying neighbours, never below 0,
   * and 0 when none qualifies (or all report negative power).
   */
  method GetPowerExcept(w: World, pos: Pos, powerFlags: Mask, exceptDir: Option<Direction>, cb: PowerCallbacks) returns (highestPower: int)
    ensures highestPower >= 0
    ensures forall d :: Qualifies(w, pos, powerFlags, exceptDir, d, cb) ==> NeighborPower(w, pos, powerFlags, d, cb) <= highestPower
    ensures highestPower == 0 || exists d :: Qualifies(w, pos, powerFlags, exceptDir, d, cb) && NeighborPower(w, pos, powerFlags, d, cb) == highestPower
  {
    highestPower := 0;
    var i := 0;
    while i < |DIRECTIONS|
      invariant 0 <= i <= |DIRECTIONS|
      invariant highestPower >= 0
      invariant forall j :: 0 <= j < i && Qualifies(w, pos, powerFlags, exceptDir, DIRECTIONS[j], cb) ==>
        NeighborPower(w, pos, powerFlags, DIRECTIONS[j], cb) <= highestPower
      invariant highestPower == 0 || exists j :: (0 <= j < i && Qualifies(w, pos, powerFlags, exceptDir, DIRECTIONS[j], cb)
        && NeighborPower(w, pos, powerFlags, DIRECTIONS[j], cb) == highestPower)
    {
      var dir := DIRECTIONS[i];
      if Some(dir) != exceptDir {
        var neighborPos := Offset(pos, dir);
        var state := GetBlockState(w, neighborPos);
        if And(cb.outputPowerFlags(state, dir), powerFlags) != {} {
          var power := cb.power(w, state, neighborPos, dir, powerFlags);
          if power > highestPower {
            highestPower := power;
          }
        }
      }
      i := i + 1;
    }
    forall d | Qualifies(w, pos, powerFlags, exceptDir, d, cb)
      ensures NeighborPower(w, pos, powerFlags, d, cb) <= highestPower
    {
      assert DIRECTIONS[DirectionIndex(d)] == d;
    }
  }

  /** getPower: getPowerExcept with no direction excluded, so all six neighbours may be asked. */
  method GetPower(w: World, pos: Pos, powerFlags: Mask, cb: PowerCallbacks) returns (power: int)
    ensures power >= 0
    ensures forall d :: And(cb.outputPowerFlags(GetBlockState(w, Offset(pos, d)), d), powerFlags) != {} ==>
      NeighborPower(w, pos, powerFlags, d, cb) <= power
    ensures power == 0 || exists d :: (And(cb.outputPowerFlags(GetBlockState(w, Offset(pos, d)), d), powerFlags) != {}
      && NeighborPower(w, pos, powerFlags, d, cb) == power)
  {
    power := GetPowerExcept(w, pos, powerFlags, None, cb);
  }
}

=== FILE: random_ticks.dfy ===
/**
 * performRandomUpdates: each tick, every chunk that exists and holds a block taking
 * random updates is sampled RANDOM_TICK_SPEED times at uniformly drawn positions, and
 * each sampled state whose block takes random updates receives `onRandomUpdate`.
 *
 * Chunks are visited `chunkX` outer, `chunkZ` inner. The draws are an explicit
 * sequence, three per sample (x offset, y, z offset). Whether a chunk exists and has
 * random-update blocks, and whether a block takes random updates, are parameters.
 * The callbacks are recorded as events and not executed.
 */
module RandomTicks {
  import opened Geometry
  import opened Blocks
  import opened WorldModel
  import opened Grid

  /**
   * What a tick consults without modelling it: whether the chunk at grid position `c`
   * exists and reports random-update blocks (false for a missing chunk), and whether
   * a block type takes random updates.
   */
  datatype TickEnv = TickEnv(chunkHasRandomUpdates: ChunkPos -> bool, hasRandomUpdate: Block -> bool)

  /** One sampled position and the chunk it was drawn in. */
  datatype Sample = Sample(chunk: ChunkPos, pos: Pos)

  /** The outcome of a tick: the positions sampled, the callbacks fired and the draws left. */
  datatype Ticks = Ticks(samples: seq<Sample>, events: seq<Event>, rest: seq<int>)

  /** The draws for `n` samples are present and each lies in its `nextInt` range. */
  predicate SampleRollsOk(cfg: Config, rolls: seq<int>, n: nat)
    decreases n
  {
    n == 0 ||
    (&& |rolls| >= 3
     && 0 <= rolls[0] < cfg.chunkSize && 0 <= rolls[1] < cfg.worldHeight && 0 <= rolls[2] < cfg.chunkSize
     && SampleRollsOk(cfg, rolls[3..], n - 1))
  }

  /** The position three draws select in chunk `c`. */
  function SamplePos(cfg: Config, c: ChunkPos, rolls: seq<int>): Pos
    requires |rolls| >= 3
  {
    Pos(rolls[0] + c.x * cfg.chunkSize, rolls[1], rolls[2] + c.z * cfg.chunkSize)
  }

  /**
   * The reference for what a tick fires: one random update per sample whose block
   * takes random updates, carrying the state stored there, in sample order.
   */
  function UpdatesFor(w: World, env: TickEnv, samples: seq<Sample>): (r: seq<Event>)
    ensures |r| <= |samples|
    ensures forall e :: e in r ==> e.RandomUpdate?
    decreases |samples|
  {
    if samples == [] then []
    else
      var state := GetBlockState(w, samples[0].pos);
      (if env.hasRandomUpdate(state.block) then [RandomUpdate(samples[0].pos, state)] else [])
        + UpdatesFor(w, env, samples[1..])
  }

  /** The `n` samples of one chunk and their callbacks. */
  function SampleChunk(w: World, cfg: Config, env: TickEnv, c: ChunkPos, rolls: seq<int>, n: nat): (r: Ticks)
    requires SampleRollsOk(cfg, rolls, n)
    ensures |r.samples| == n
    ensures forall k :: 0 <= k < |r.samples| ==> r.samples[k].chunk == c && InChunk(cfg, c, r.samples[k].pos)
    ensures r.events == UpdatesFor(w, env, r.samples)
    ensures |rolls| == |r.rest| + 3 * n && r.rest == rolls[3 * n..]
    ensures forall k :: 0 <= k < n ==>
              r.samples[k].pos == Pos(rolls[3 * k] + c.x * cfg.chunkSize, rolls[3 * k + 1], rolls[3 * k + 2] + c.z * cfg.chunkSize)
    decreases n
  {
    if n == 0 then Ticks([], [], rolls)
    else
      var pos := SamplePos(cfg, c, rolls);
      var state := GetBlockState(w, pos);
      var more := SampleChunk(w, cfg, env, c, rolls[3..], n - 1);
      var fired := if env.hasRandomUpdate(state.block) then [RandomUpdate(pos, state)] else [];
      assert UpdatesFor(w, env, [Sample(c, pos)] + more.samples) == fired + more.events by {
        assert ([Sample(c, pos)] + more.samples)[1..] == more.samples;
      }
      Ticks([Sample(c, pos)] + more.samples, fired + more.events, more.rest)
  }

  /** The draws for visiting `chunks` in order: RANDOM_TICK_SPEED samples for each flagged one. */
  predicate TicksRollsOk(cfg: Config, env: TickEnv, chunks: seq<ChunkPos>, rolls: seq<int>)
    requires cfg.Valid()
    decreases |chunks|
  {
    chunks == [] ||
    if env.chunkHasRandomUpdates(chunks[0]) then
      && SampleRollsOk(cfg, rolls, cfg.randomTickSpeed)
      && |rolls| >= 3 * cfg.randomTickSpeed
      && TicksRollsOk(cfg, env, chunks[1..], rolls[3 * cfg.randomTickSpeed..])
    else
      TicksRollsOk(cfg, env, chunks[1..], rolls)
  }

  /**
   * The chunk loop: flagged chunks are sampled, the others skipped without drawing.
   * Every sample lies in a flagged chunk of the list, and each consumes three draws
   * from the front of the sequence.
   */
  function TickChunks(w: World, cfg: Config, env: TickEnv, chunks: seq<ChunkPos>, rolls: seq<int>): (r: Ticks)
    requires cfg.Valid()
    requires TicksRollsOk(cfg, env, chunks, rolls)
    ensures forall k :: 0 <= k < |r.samples| ==>
              && env.chunkHasRandomUpdates(r.samples[k].chunk)
              && InChunk(cfg, r.samples[k].chunk, r.samples[k].pos)
    ensures r.events == UpdatesFor(w, env, r.samples)
    ensures |rolls| == |r.rest| + 3 * |r.samples| && r.rest == rolls[3 * |r.samples|..]
    decreases |chunks|
  {
    if chunks == [] then Ticks([], [], rolls)
    else if env.chunkHasRandomUpdates(chunks[0]) then
      var first := SampleChunk(w, cfg, env, chunks[0], rolls, cfg.randomTickSpeed);
      var more := TickChunks(w, cfg, env, chunks[1..], first.rest);
      TicksJoin(w, cfg, env, rolls, first, more);
      Joined(first, more)
    else
      TickChunks(w, cfg, env, chunks[1..], rolls)
  }

  /** The samples, callbacks and draws of `first` followed by those of `more`. */
  function Joined(first: Ticks, more: Ticks): Ticks
  {
    Ticks(first.samples + more.samples, first.events + more.events, more.rest)
  }

  /** Joining two runs keeps what each promises: flagged chunks, fired updates, draws in front. */
  lemma TicksJoin(w: World, cfg: Config, env: TickEnv, rolls: seq<int>, first: Ticks, more: Ticks)
    requires forall k :: 0 <= k < |first.samples| ==>
               env.chunkHasRandomUpdates(first.samples[k].chunk) && InChunk(cfg, first.samples[k].chunk, first.samples[k].pos)
    requires forall k :: 0 <= k < |more.samples| ==>
               env.chunkHasRandomUpdates(more.samples[k].chunk) && InChunk(cfg, more.samples[k].chunk, more.samples[k].pos)
    requires first.events == UpdatesFor(w, env, first.samples) && more.events == UpdatesFor(w, env, more.samples)
    requires |rolls| == |first.rest| + 3 * |first.samples| && first.rest == rolls[3 * |first.samples|..]
    requires |first.rest| == |more.rest| + 3 * |more.samples| && more.rest == first.rest[3 * |more.samples|..]
    ensures var r := Joined(first, more);
            && (forall k :: 0 <= k < |r.samples| ==>
                  env.chunkHasRandomUpdates(r.samples[k].chunk) && InChunk(cfg, r.samples[k].chunk, r.samples[k].pos))
            && r.events == UpdatesFor(w, env, r.samples)
            && |rolls| == |r.rest| + 3 * |r.samples| && r.rest == rolls[3 * |r.samples|..]
  {
    var samples := first.samples + more.samples;
    UpdatesForConcat(w, env, first.samples, more.samples);
    assert forall k :: 0 <= k < |first.samples| ==> samples[k] == first.samples[k];
    assert forall k :: |first.samples| <= k < |samples| ==> samples[k] == more.samples[k - |first.samples|];
    assert more.rest == rolls[3 * |first.samples|..][3 * |more.samples|..];
  }

  /** The chunks `(cx, cz)` to `(cx, z1 - 1)`. */
  function ChunkLine(cx: int, cz: int, z1: int): (r: seq<ChunkPos>)
    requires cz <= z1
    ensures |r| == z1 - cz
    decreases z1 - cz
  {
    if cz == z1 then [] else [ChunkPos(cx, cz)] + ChunkLine(cx, cz + 1, z1)
  }

  /** The lines `cx` to `x1 - 1`, each of `chunksZ` chunks. */
  function ChunkLines(cx: int, x1: int, chunksZ: nat): seq<ChunkPos>
    requires cx <= x1
    decreases x1 - cx
  {
    if cx == x1 then [] else ChunkLine(cx, 0, chunksZ) + ChunkLines(cx + 1, x1, chunksZ)
  }

  /** performRandomUpdates' visiting order: `chunkX` outer, `chunkZ` inner. */
  function TickOrder(cfg: Config): seq<ChunkPos>
    requires cfg.Valid()
  {
    ChunkLines(0, cfg.chunksX, cfg.chunksZ)
  }

  /** One tick of performRandomUpdates over the whole grid. */
  function PerformRandomUpdates(w: World, cfg: Config, env: TickEnv, rolls: seq<int>): (r: Ticks)
    requires cfg.Valid()
    requires TicksRollsOk(cfg, env, TickOrder(cfg), rolls)
    ensures forall k :: 0 <= k < |r.samples| ==>
              && InGrid(cfg, r.samples[k].chunk)
              && env.chunkHasRandomUpdates(r.samples[k].chunk)
              && InChunk(cfg, r.samples[k].chunk, r.samples[k].pos)
    ensures r.events == UpdatesFor(w, env, r.samples)
    ensures |rolls| == |r.rest| + 3 * |r.samples| && r.rest == rolls[3 * |r.samples|..]
  {
    var r := TickChunks(w, cfg, env, TickOrder(cfg), rolls);
    forall k | 0 <= k < |r.samples|
      ensures InGrid(cfg, r.samples[k].chunk)
    {
      var c := r.samples[k].chunk;
      SampleCounted(r.samples, k);
      TickChunksCount(w, cfg, env, TickOrder(cfg), rolls, c);
      TickOrderOnce(cfg, c);
    }
    r
  }

  // ----- What is fired -----

  lemma {:induction false} UpdatesForConcat(w: World, env: TickEnv, a: seq<Sample>, b: seq<Sample>)
    ensures UpdatesFor(w, env, a + b) == UpdatesFor(w, env, a) + UpdatesFor(w, env, b)
    decreases |a|
  {
    if a == [] {
      assert a + b == b;
    } else {
      assert (a + b)[1..] == a[1..] + b;
      UpdatesForConcat(w, env, a[1..], b);
    }
  }

  /** Every sample whose block takes random updates receives one, with the state stored there. */
  lemma {:induction false} UpdatesForComplete(w: World, env: TickEnv, samples: seq<Sample>, k: nat)
    requires k < |samples|
    requires env.hasRandomUpdate(GetBlockState(w, samples[k].pos).block)
    ensures RandomUpdate(samples[k].pos, GetBlockState(w, samples[k].pos)) in UpdatesFor(w, env, samples)
    decreases k
  {
    if k > 0 {
      UpdatesForComplete(w, env, samples[1..], k - 1);
    }
  }

  /**
   * Every callback fired is a random update of a sampled position, delivered to the
   * state stored there, whose block takes random updates.
   */
  lemma {:induction false} UpdatesForSound(w: World, env: TickEnv, samples: seq<Sample>, e: Event)
    requires e in UpdatesFor(w, env, samples)
    ensures e.RandomUpdate? && e.state == GetBlockState(w, e.pos) && env.hasRandomUpdate(e.state.block)
    ensures exists k :: 0 <= k < |samples| && samples[k].pos == e.pos
    decreases |samples|
  {
    var state := GetBlockState(w, samples[0].pos);
    var fired := if env.hasRandomUpdate(state.block) then [RandomUpdate(samples[0].pos, state)] else [];
    if e !in fired {
      UpdatesForSound(w, env, samples[1..], e);
      var k :| 0 <= k < |samples[1..]| && samples[1..][k].pos == e.pos;
      assert samples[k + 1].pos == e.pos;
    }
  }

  // ----- How often each chunk is sampled -----

  /** How many of `samples` were drawn in chunk `c`. */
  function SamplesIn(samples: seq<Sample>, c: ChunkPos): nat
    decreases |samples|
  {
    if samples == [] then 0
    else (if samples[0].chunk == c then 1 else 0) + SamplesIn(samples[1..], c)
  }

  lemma {:induction false} SamplesInConcat(a: seq<Sample>, b: seq<Sample>, c: ChunkPos)
    ensures SamplesIn(a + b, c) == SamplesIn(a, c) + SamplesIn(b, c)
    decreases |a|
  {
    if a == [] {
      assert a + b == b;
    } else {
      assert (a + b)[1..] == a[1..] + b;
      SamplesInConcat(a[1..], b, c);
    }
  }

  lemma {:induction false} SampleCounted(samples: seq<Sample>, k: nat)
    requires k < |samples|
    ensures SamplesIn(samples, samples[k].chunk) > 0
    decreases k
  {
    if k > 0 {
      SampleCounted(samples[1..], k - 1);
    }
  }

  lemma {:induction false} SamplesInOneChunk(samples: seq<Sample>, c0: ChunkPos, c: ChunkPos)
    requires forall k :: 0 <= k < |samples| ==> samples[k].chunk == c0
    ensures SamplesIn(samples, c) == if c == c0 then |samples| else 0
    decreases |samples|
  {
    if samples != [] {
      SamplesInOneChunk(samples[1..], c0, c);
    }
  }

  /** A flagged first chunk is sampled, then the rest are visited with the draws left. */
  lemma TickChunksFlagged(w: World, cfg: Config, env: TickEnv, chunks: seq<ChunkPos>, rolls: seq<int>)
    requires cfg.Valid() && chunks != [] && env.chunkHasRandomUpdates(chunks[0])
    requires TicksRollsOk(cfg, env, chunks, rolls)
    ensures var first := SampleChunk(w, cfg, env, chunks[0], rolls, cfg.randomTickSpeed);
            TickChunks(w, cfg, env, chunks, rolls) == Joined(first, TickChunks(w, cfg, env, chunks[1..], first.rest))
  {
  }

  /** An unflagged first chunk is skipped without drawing. */
  lemma TickChunksSkips(w: World, cfg: Config, env: TickEnv, chunks: seq<ChunkPos>, rolls: seq<int>)
    requires cfg.Valid() && chunks != [] && !env.chunkHasRandomUpdates(chunks[0])
    requires TicksRollsOk(cfg, env, chunks, rolls)
    ensures TickChunks(w, cfg, env, chunks, rolls) == TickChunks(w, cfg, env, chunks[1..], rolls)
  {
  }

  /** Joining a flagged chunk's samples onto a counted run adds one occurrence's worth for that chunk. */
  lemma JoinedCount(env: TickEnv, first: Ticks, more: Ticks, c0: ChunkPos, c: ChunkPos, speed: nat, m: nat)
    requires env.chunkHasRandomUpdates(c0)
    requires |first.samples| == speed
    requires forall k :: 0 <= k < |first.samples| ==> first.samples[k].chunk == c0
    requires SamplesIn(more.samples, c) == if env.chunkHasRandomUpdates(c) then Times(m, speed) else 0
    ensures SamplesIn(Joined(first, more).samples, c)
            == if env.chunkHasRandomUpdates(c) then Times((if c0 == c then 1 else 0) + m, speed) else 0
  {
    SamplesInConcat(first.samples, more.samples, c);
    SamplesInOneChunk(first.samples, c0, c);
    assert Times(m + 1, speed) == speed + Times(m, speed);
  }

  /** The counting step for a flagged first chunk, given the count for the rest of the list. */
  lemma TickChunksCountFlagged(w: World, cfg: Config, env: TickEnv, chunks: seq<ChunkPos>, rolls: seq<int>, c: ChunkPos)
    requires cfg.Valid() && chunks != [] && env.chunkHasRandomUpdates(chunks[0])
    requires TicksRollsOk(cfg, env, chunks, rolls)
    requires var first := SampleChunk(w, cfg, env, chunks[0], rolls, cfg.randomTickSpeed);
             SamplesIn(TickChunks(w, cfg, env, chunks[1..], first.rest).samples, c)
             == if env.chunkHasRandomUpdates(c) then Times(Occurrences(chunks[1..], c), cfg.randomTickSpeed) else 0
    ensures SamplesIn(TickChunks(w, cfg, env, chunks, rolls).samples, c)
            == if env.chunkHasRandomUpdates(c) then Times(Occurrences(chunks, c), cfg.randomTickSpeed) else 0
  {
    var first := SampleChunk(w, cfg, env, chunks[0], rolls, cfg.randomTickSpeed);
    assert Occurrences(chunks, c) == (if chunks[0] == c then 1 else 0) + Occurrences(chunks[1..], c);
    TickChunksFlagged(w, cfg, env, chunks, rolls);
    JoinedCount(env, first, TickChunks(w, cfg, env, chunks[1..], first.rest), chunks[0], c,
                cfg.randomTickSpeed, Occurrences(chunks[1..], c));
  }

  /** A flagged chunk is sampled RANDOM_TICK_SPEED times per occurrence in the list; others never. */
  lemma {:induction false} TickChunksCount(w: World, cfg: Config, env: TickEnv, chunks: seq<ChunkPos>, rolls: seq<int>, c: ChunkPos)
    requires cfg.Valid()
    requires TicksRollsOk(cfg, env, chunks, rolls)
    ensures SamplesIn(TickChunks(w, cfg, env, chunks, rolls).samples, c)
            == if env.chunkHasRandomUpdates(c) then Times(Occurrences(chunks, c), cfg.randomTickSpeed) else 0
    decreases |chunks|
  {
    if chunks != [] {
      if env.chunkHasRandomUpdates(chunks[0]) {
        var first := SampleChunk(w, cfg, env, chunks[0], rolls, cfg.randomTickSpeed);
        TickChunksCount(w, cfg, env, chunks[1..], first.rest, c);
        TickChunksCountFlagged(w, cfg, env, chunks, rolls, c);
      } else {
        assert Occurrences(chunks, c) == (if chunks[0] == c then 1 else 0) + Occurrences(chunks[1..], c);
        TickChunksSkips(w, cfg, env, chunks, rolls);
        TickChunksCount(w, cfg, env, chunks[1..], rolls, c);
      }
    }
  }

  // ----- The visiting order -----

  /** How often `c` occurs in `s`. */
  function Occurrences(s: seq<ChunkPos>, c: ChunkPos): nat
    decreases |s|
  {
    if s == [] then 0 else (if s[0] == c then 1 else 0) + Occurrences(s[1..], c)
  }

  lemma {:induction false} OccurrencesConcat(a: seq<ChunkPos>, b: seq<ChunkPos>, c: ChunkPos)
    ensures Occurrences(a + b, c) == Occurrences(a, c) + Occurrences(b, c)
    decreases |a|
  {
    if a == [] {
      assert a + b == b;
    } else {
      assert (a + b)[1..] == a[1..] + b;
      OccurrencesConcat(a[1..], b, c);
    }
  }

  lemma {:induction false} ChunkLineAt(cx: int, cz: int, z1: int, k: nat)
    requires cz <= z1 && k < z1 - cz
    ensures ChunkLine(cx, cz, z1)[k] == ChunkPos(cx, cz + k)
    decreases k
  {
    if k > 0 {
      ChunkLineAt(cx, cz + 1, z1, k - 1);
    }
  }

  lemma {:induction false} ChunkLineCount(cx: int, cz: int, z1: int, c: ChunkPos)
    requires cz <= z1
    ensures Occurrences(ChunkLine(cx, cz, z1), c) == if c.x == cx && cz <= c.z < z1 then 1 else 0
    decreases z1 - cz
  {
    if cz < z1 {
      var more := ChunkLine(cx, cz + 1, z1);
      ChunkLineCount(cx, cz + 1, z1, c);
      assert ChunkLine(cx, cz, z1) == [ChunkPos(cx, cz)] + more;
      assert ([ChunkPos(cx, cz)] + more)[1..] == more;
    }
  }

  lemma {:induction false} ChunkLinesCount(cx: int, x1: int, chunksZ: nat, c: ChunkPos)
    requires cx <= x1
    ensures Occurrences(ChunkLines(cx, x1, chunksZ), c) == if cx <= c.x < x1 && 0 <= c.z < chunksZ then 1 else 0
    decreases x1 - cx
  {
    if cx < x1 {
      var line := ChunkLine(cx, 0, chunksZ);
      var more := ChunkLines(cx + 1, x1, chunksZ);
      assert ChunkLines(cx, x1, chunksZ) == line + more;
      OccurrencesConcat(line, more, c);
      ChunkLineCount(cx, 0, chunksZ, c);
      ChunkLinesCount(cx + 1, x1, chunksZ, c);
    }
  }

  /** The visiting order holds every grid chunk exactly once and nothing else. */
  lemma TickOrderOnce(cfg: Config, c: ChunkPos)
    requires cfg.Valid()
    ensures Occurrences(TickOrder(cfg), c) == if InGrid(cfg, c) then 1 else 0
  {
    ChunkLinesCount(0, cfg.chunksX, cfg.chunksZ, c);
  }

  /** `a` is visited before `b`: a smaller `chunkX`, or the same one and a smaller `chunkZ`. */
  predicate VisitedBefore(a: ChunkPos, b: ChunkPos)
  {
    a.x < b.x || (a.x == b.x && a.z < b.z)
  }

  predicate StrictlyOrdered(s: seq<ChunkPos>)
  {
    forall i, j :: 0 <= i < j < |s| ==> VisitedBefore(s[i], s[j])
  }

  lemma {:induction false} ChunkLinesBounds(cx: int, x1: int, chunksZ: nat, k: nat)
    requires cx <= x1 && k < |ChunkLines(cx, x1, chunksZ)|
    ensures cx <= ChunkLines(cx, x1, chunksZ)[k].x
    decreases x1 - cx
  {
    var line := ChunkLine(cx, 0, chunksZ);
    var more := ChunkLines(cx + 1, x1, chunksZ);
    if k < |line| {
      ChunkLineAt(cx, 0, chunksZ, k);
      assert (line + more)[k] == line[k];
    } else {
      ChunkLinesBounds(cx + 1, x1, chunksZ, k - |line|);
      assert (line + more)[k] == more[k - |line|];
    }
  }

  lemma {:induction false} ChunkLinesOrdered(cx: int, x1: int, chunksZ: nat)
    requires cx <= x1
    ensures StrictlyOrdered(ChunkLines(cx, x1, chunksZ))
    decreases x1 - cx
  {
    if cx < x1 {
      var line := ChunkLine(cx, 0, chunksZ);
      var more := ChunkLines(cx + 1, x1, chunksZ);
      ChunkLinesOrdered(cx + 1, x1, chunksZ);
      forall i, j | 0 <= i < j < |line + more|
        ensures VisitedBefore((line + more)[i], (line + more)[j])
      {
        if j < |line| {
          ChunkLineAt(cx, 0, chunksZ, i);
          ChunkLineAt(cx, 0, chunksZ, j);
        } else if i < |line| {
          ChunkLineAt(cx, 0, chunksZ, i);
          ChunkLinesBounds(cx + 1, x1, chunksZ, j - |line|);
        } else {
          assert (line + more)[i] == more[i - |line|];
        }
      }
    }
  }

  /** Each chunk is visited after every chunk with a smaller `chunkX`, or the same `chunkX` and a smaller `chunkZ`. */
  lemma TickOrderOrdered(cfg: Config)
    requires cfg.Valid()
    ensures StrictlyOrdered(TickOrder(cfg))
  {
    ChunkLinesOrdered(0, cfg.chunksX, cfg.chunksZ);
  }

  lemma {:induction false} OccurrenceAt(s: seq<ChunkPos>, c: ChunkPos)
    requires Occurrences(s, c) > 0
    ensures exists i :: 0 <= i < |s| && s[i] == c
    decreases |s|
  {
    if s[0] != c {
      OccurrenceAt(s[1..], c);
      var i :| 0 <= i < |s[1..]| && s[1..][i] == c;
      assert s[i + 1] == c;
    }
  }

  /** Every sample is drawn in one of the chunks visited. */
  lemma SampleChunkListed(w: World, cfg: Config, env: TickEnv, chunks: seq<ChunkPos>, rolls: seq<int>, k: nat)
    requires cfg.Valid()
    requires TicksRollsOk(cfg, env, chunks, rolls)
    requires k < |TickChunks(w, cfg, env, chunks, rolls).samples|
    ensures exists i :: 0 <= i < |chunks| && chunks[i] == TickChunks(w, cfg, env, chunks, rolls).samples[k].chunk
  {
    var samples := TickChunks(w, cfg, env, chunks, rolls).samples;
    SampleCounted(samples, k);
    TickChunksCount(w, cfg, env, chunks, rolls, samples[k].chunk);
    OccurrenceAt(chunks, samples[k].chunk);
  }

  /** The samples of a chunk all come before those of any chunk visited later. */
  predicate SamplesInVisitOrder(samples: seq<Sample>)
  {
    forall i, j :: 0 <= i < j < |samples| ==>
      samples[i].chunk == samples[j].chunk || VisitedBefore(samples[i].chunk, samples[j].chunk)
  }

  /** The samples of one chunk, then samples in order all from chunks visited later, are in order. */
  lemma JoinedInOrder(first: Ticks, more: Ticks, c0: ChunkPos)
    requires forall k :: 0 <= k < |first.samples| ==> first.samples[k].chunk == c0
    requires forall k :: 0 <= k < |more.samples| ==> VisitedBefore(c0, more.samples[k].chunk)
    requires SamplesInVisitOrder(more.samples)
    ensures SamplesInVisitOrder(Joined(first, more).samples)
  {
    var samples := Joined(first, more).samples;
    var n := |first.samples|;
    forall i, j | 0 <= i < j < |samples|
      ensures samples[i].chunk == samples[j].chunk || VisitedBefore(samples[i].chunk, samples[j].chunk)
    {
      if j < n {
        assert samples[i] == first.samples[i] && samples[j] == first.samples[j];
      } else if i < n {
        assert samples[i] == first.samples[i] && samples[j] == more.samples[j - n];
      } else {
        assert samples[i] == more.samples[i - n] && samples[j] == more.samples[j - n];
      }
    }
  }

  lemma OrderedTail(chunks: seq<ChunkPos>)
    requires chunks != [] && StrictlyOrdered(chunks)
    ensures StrictlyOrdered(chunks[1..])
    ensures forall m :: 0 <= m < |chunks[1..]| ==> VisitedBefore(chunks[0], chunks[1..][m])
  {
    var tail := chunks[1..];
    forall i, j | 0 <= i < j < |tail| ensures VisitedBefore(tail[i], tail[j]) {
      assert tail[i] == chunks[i + 1] && tail[j] == chunks[j + 1];
    }
    forall m | 0 <= m < |tail| ensures VisitedBefore(chunks[0], tail[m]) {
      assert tail[m] == chunks[m + 1];
    }
  }

  lemma {:induction false} TickChunksInOrder(w: World, cfg: Config, env: TickEnv, chunks: seq<ChunkPos>, rolls: seq<int>)
    requires cfg.Valid()
    requires TicksRollsOk(cfg, env, chunks, rolls)
    requires StrictlyOrdered(chunks)
    ensures SamplesInVisitOrder(TickChunks(w, cfg, env, chunks, rolls).samples)
    decreases |chunks|
  {
    if chunks != [] {
      var tail := chunks[1..];
      OrderedTail(chunks);
      if env.chunkHasRandomUpdates(chunks[0]) {
        var first := SampleChunk(w, cfg, env, chunks[0], rolls, cfg.randomTickSpeed);
        var more := TickChunks(w, cfg, env, tail, first.rest);
        TickChunksFlagged(w, cfg, env, chunks, rolls);
        TickChunksInOrder(w, cfg, env, tail, first.rest);
        forall k | 0 <= k < |more.samples|
          ensures VisitedBefore(chunks[0], more.samples[k].chunk)
        {
          SampleChunkListed(w, cfg, env, tail, first.rest, k);
        }
        JoinedInOrder(first, more, chunks[0]);
      } else {
        TickChunksSkips(w, cfg, env, chunks, rolls);
        TickChunksInOrder(w, cfg, env, tail, rolls);
      }
    }
  }

  // ----- The tick as a whole -----

  /**
   * Per tick, a grid chunk is sampled RANDOM_TICK_SPEED times when it exists and has
   * random-update blocks, and never otherwise; nothing outside the grid is sampled.
   */
  lemma RandomTicksPerChunk(w: World, cfg: Config, env: TickEnv, rolls: seq<int>, c: ChunkPos)
    requires cfg.Valid()
    requires TicksRollsOk(cfg, env, TickOrder(cfg), rolls)
    ensures SamplesIn(PerformRandomUpdates(w, cfg, env, rolls).samples, c)
            == if InGrid(cfg, c) && env.chunkHasRandomUpdates(c) then cfg.randomTickSpeed else 0
  {
    TickChunksCount(w, cfg, env, TickOrder(cfg), rolls, c);
    TickOrderOnce(cfg, c);
    assert Times(1, cfg.randomTickSpeed) == cfg.randomTickSpeed;
  }

  /**
   * A tick samples chunk by chunk in visiting order: `chunkX` outer, `chunkZ` inner,
   * all of one chunk's samples together.
   */
  lemma RandomTicksInOrder(w: World, cfg: Config, env: TickEnv, rolls: seq<int>)
    requires cfg.Valid()
    requires TicksRollsOk(cfg, env, TickOrder(cfg), rolls)
    ensures SamplesInVisitOrder(PerformRandomUpdates(w, cfg, env, rolls).samples)
  {
    TickOrderOrdered(cfg);
    TickChunksInOrder(w, cfg, env, TickOrder(cfg), rolls);
  }
}

=== FILE: trees.dfy ===
/**
 * growTree: a log column and an ellipsoidal crown of leaves.
 *
 * The tree height is `5 + nextInt(3)`; the draw is the parameter `roll`. The loops of
 * growTree are split into the list of writes they attempt, in loop order (TreePlan),
 * and the execution of that list against the world (PlaceAll). Logs overwrite
 * whatever is there; leaves go only into cells that read as air when their turn
 * comes. Every write requests neighbour updates.
 */
module TreeGrowth {
  import opened Geometry
  import opened Blocks
  import opened WorldModel

  /** Half the side of the square a crown layer is tested over. */
  const CROWN_RADIUS: int := 3
  /** Leaves need a squared offset strictly below `3 * 2 * 3`. */
  const LEAF_DIST_SQR_LIMIT: int := 3 * 2 * 3

  const LEAVES: BlockState := DefaultState(Leaves)
  const LOG: BlockState := DefaultState(WoodLog)

  function TreeHeight(roll: int): (h: int)
    requires 0 <= roll < 3
    ensures 5 <= h <= 7
  {
    5 + roll
  }

  /** `Math.max(1, treeHeight - 5)`: the level above which leaves start. */
  function TrunkHeight(treeHeight: int): (t: int)
    ensures t >= 1 && t >= treeHeight - 5
    ensures t == 1 || t == treeHeight - 5
  {
    if treeHeight - 5 > 1 then treeHeight - 5 else 1
  }

  /**
   * `n * n`, as a sum of odd numbers: the crown proofs then need no nonlinear
   * arithmetic. SquareIsProduct connects it to multiplication.
   */
  function Square(n: int): nat
    decreases if n < 0 then 1 - n else n
  {
    if n < 0 then Square(-n) else if n == 0 then 0 else Square(n - 1) + 2 * n - 1
  }

  lemma {:induction false} SquareIsProduct(n: int)
    decreases if n < 0 then 1 - n else n
    ensures Square(n) == n * n
  {
    if n < 0 {
      SquareIsProduct(-n);
    } else if n > 0 {
      SquareIsProduct(n - 1);
    }
  }

  /** The squared length `xo * xo + yo * yo + zo * zo` of a crown offset. */
  function DistSqr(xo: int, yo: int, zo: int): int
  {
    Square(xo) + Square(yo) + Square(zo)
  }

  // ----- Executing a list of writes -----

  /** One write: `state` at `pos`; a leaf write only into a cell that reads as air. */
  datatype Placement = Placement(pos: Pos, state: BlockState, intoAirOnly: bool)

  /** The effect of one placement on the state of its own cell. */
  function Cell(s: BlockState, pl: Placement): BlockState
  {
    if pl.intoAirOnly && !s.IsAir() then s else pl.state
  }

  /** One placement against the world: the air test, then setBlockState with updates. */
  function Place(w: World, pl: Placement): (r: Write)
    ensures r.world == (if pl.pos in w then w[pl.pos := Cell(w[pl.pos], pl)] else w)
    ensures pl.intoAirOnly && !GetBlockState(w, pl.pos).IsAir() ==> r.events == []
    ensures !(pl.intoAirOnly && !GetBlockState(w, pl.pos).IsAir()) ==>
              r.events == SetBlockState(w, pl.pos, pl.state, true).events
    ensures forall e :: e in r.events ==>
              pl.pos in w && (e == Removed(pl.pos, w[pl.pos]) || e == Added(pl.pos, pl.state) || e == StateReplaced(pl.pos, pl.state))
    ensures !pl.state.IsAir() ==> forall e :: e in r.events ==> e.Added? || e.StateReplaced?
    ensures pl.pos in w && !pl.state.IsAir() ==> (Added(pl.pos, pl.state) in r.events <==> w[pl.pos].IsAir())
  {
    if pl.intoAirOnly && !GetBlockState(w, pl.pos).IsAir() then Write(w, false, [])
    else
      SetBlockStateEventOrder(w, pl.pos, pl.state, true);
      SetBlockState(w, pl.pos, pl.state, true)
  }

  /** The placements in order, each against the world the previous ones left. */
  function PlaceAll(w: World, pls: seq<Placement>): (r: Effect)
    ensures r.world.Keys == w.Keys
    decreases |pls|
  {
    if pls == [] then Effect(w, [])
    else
      var first := Place(w, pls[0]);
      var rest := PlaceAll(first.world, pls[1..]);
      Effect(rest.world, first.events + rest.events)
  }

  /** The placements aimed at `p`, in order. */
  function At(pls: seq<Placement>, p: Pos): (r: seq<Placement>)
  {
    if pls == [] then []
    else (if pls[0].pos == p then [pls[0]] else []) + At(pls[1..], p)
  }

  /** The state a cell ends in after the placements aimed at it, starting from `s`. */
  function CellAll(s: BlockState, pls: seq<Placement>): BlockState
    decreases |pls|
  {
    if pls == [] then s else CellAll(Cell(s, pls[0]), pls[1..])
  }

  lemma {:induction false} AtConcat(a: seq<Placement>, b: seq<Placement>, p: Pos)
    ensures At(a + b, p) == At(a, p) + At(b, p)
  {
    if a == [] {
      assert a + b == b;
    } else {
      assert (a + b)[0] == a[0];
      assert (a + b)[1..] == a[1..] + b;
      AtConcat(a[1..], b, p);
    }
  }

  lemma CellAllCons(s: BlockState, pl: Placement, rest: seq<Placement>)
    ensures CellAll(s, [pl] + rest) == CellAll(Cell(s, pl), rest)
  {
    assert ([pl] + rest)[1..] == rest;
  }

  /** Writes never interfere across cells: each cell ends as its own placements leave it. */
  lemma {:induction false} PlaceAllAt(w: World, pls: seq<Placement>, p: Pos)
    requires p in w
    ensures PlaceAll(w, pls).world[p] == CellAll(w[p], At(pls, p))
  {
    if pls != [] {
      var first := Place(w, pls[0]);
      PlaceAllAt(first.world, pls[1..], p);
      if pls[0].pos == p {
        assert At(pls, p) == [pls[0]] + At(pls[1..], p);
        CellAllCons(w[p], pls[0], At(pls[1..], p));
      } else {
        assert At(pls, p) == [] + At(pls[1..], p) == At(pls[1..], p);
      }
    }
  }

  /** Only Added and StateReplaced callbacks: nothing written is air. */
  predicate NoRemovals(events: seq<Event>)
  {
    forall e :: e in events ==> e.Added? || e.StateReplaced?
  }

  /** No placement writes air. */
  predicate NoAirWrites(pls: seq<Placement>)
  {
    forall pl :: pl in pls ==> !pl.state.IsAir()
  }

  /**
   * Every callback of a run of non-air placements is at a cell some placement aims at,
   * carries that placement's state, and is an `onAdded` only where the cell held air.
   */
  lemma {:induction false} PlaceAllEventsSound(w: World, pls: seq<Placement>, e: Event)
    requires NoAirWrites(pls)
    requires e in PlaceAll(w, pls).events
    ensures e.pos in w
    ensures exists pl :: pl in At(pls, e.pos) && pl.state == e.state
    ensures e.Added? ==> w[e.pos].IsAir()
  {
    if pls != [] {
      var first := Place(w, pls[0]);
      var rest := PlaceAll(first.world, pls[1..]);
      assert pls[0] in pls;
      if e in first.events {
        assert At(pls, e.pos)[0] == pls[0];
      } else {
        assert e in rest.events;
        assert forall pl :: pl in pls[1..] ==> pl in pls;
        PlaceAllEventsSound(first.world, pls[1..], e);
        var pl :| pl in At(pls[1..], e.pos) && pl.state == e.state;
        assert At(pls, e.pos) == (if pls[0].pos == e.pos then [pls[0]] else []) + At(pls[1..], e.pos);
        assert pl in At(pls, e.pos);
      }
    }
  }

  lemma {:induction false} PlaceAllNoRemovals(w: World, pls: seq<Placement>)
    requires NoAirWrites(pls)
    ensures NoRemovals(PlaceAll(w, pls).events)
  {
    if pls != [] {
      var first := Place(w, pls[0]);
      assert pls[0] in pls;
      assert forall pl :: pl in pls[1..] ==> pl in pls;
      PlaceAllNoRemovals(first.world, pls[1..]);
    }
  }

  /** A cell that starts as air fires `onAdded` for the first non-air state aimed at it. */
  lemma {:induction false} PlaceAllAdds(w: World, pls: seq<Placement>, p: Pos)
    requires p in w && w[p].IsAir()
    requires At(pls, p) != [] && !At(pls, p)[0].state.IsAir()
    ensures Added(p, At(pls, p)[0].state) in PlaceAll(w, pls).events
  {
    var first := Place(w, pls[0]);
    if pls[0].pos == p {
      assert At(pls, p)[0] == pls[0];
    } else {
      assert At(pls, p) == At(pls[1..], p);
      PlaceAllAdds(first.world, pls[1..], p);
    }
  }

  // ----- The writes growTree attempts, in loop order -----

  function Leaf(p: Pos): Placement { Placement(p, LEAVES, true) }
  function Log(p: Pos): Placement { Placement(p, LOG, false) }

  /** One crown row at level `i`, row `zo`: `xo` runs from its start to 3; the distance test filters. */
  function CrownRow(origin: Pos, i: int, yo: int, zo: int, xo: int): seq<Placement>
    requires -CROWN_RADIUS <= xo <= CROWN_RADIUS + 1
    decreases CROWN_RADIUS + 1 - xo
  {
    if xo > CROWN_RADIUS then []
    else
      (if DistSqr(xo, yo, zo) < LEAF_DIST_SQR_LIMIT then [Leaf(Pos(origin.x + xo, origin.y + i, origin.z + zo))] else [])
      + CrownRow(origin, i, yo, zo, xo + 1)
  }

  /** One crown layer at level `i`: rows `zo` from its start to 3. */
  function CrownLayer(origin: Pos, i: int, yo: int, zo: int): seq<Placement>
    requires -CROWN_RADIUS <= zo <= CROWN_RADIUS + 1
    decreases CROWN_RADIUS + 1 - zo
  {
    if zo > CROWN_RADIUS then []
    else CrownRow(origin, i, yo, zo, -CROWN_RADIUS) + CrownLayer(origin, i, yo, zo + 1)
  }

  /** The leaves of level `i`: a crown layer above the trunk height. */
  function LevelLeaves(origin: Pos, trunkHeight: int, i: int): seq<Placement>
  {
    if i > trunkHeight then CrownLayer(origin, i, i - trunkHeight, -CROWN_RADIUS) else []
  }

  /** The log of level `i`: every level but the top one. */
  function LevelLog(origin: Pos, treeHeight: int, i: int): seq<Placement>
  {
    if i < treeHeight - 1 then [Log(Pos(origin.x, origin.y + i, origin.z))] else []
  }

  /** One pass of the level loop: the leaves, then the log. */
  function LevelPlan(origin: Pos, treeHeight: int, trunkHeight: int, i: int): seq<Placement>
  {
    LevelLeaves(origin, trunkHeight, i) + LevelLog(origin, treeHeight, i)
  }

  /** The level loop from level `i` up. */
  function TreePlan(origin: Pos, treeHeight: int, trunkHeight: int, i: int): seq<Placement>
    requires 0 <= i <= treeHeight
    decreases treeHeight - i
  {
    if i == treeHeight then []
    else LevelPlan(origin, treeHeight, trunkHeight, i) + TreePlan(origin, treeHeight, trunkHeight, i + 1)
  }

  /** growTree at `origin` with tree-height draw `roll`. */
  function GrowTree(w: World, origin: Pos, roll: int): (r: Effect)
    requires 0 <= roll < 3
    ensures r.world.Keys == w.Keys
  {
    var treeHeight := TreeHeight(roll);
    PlaceAll(w, TreePlan(origin, treeHeight, TrunkHeight(treeHeight), 0))
  }

  // ----- The tree's shape, stated cell by cell -----

  /** `p` is on the log column: levels 0 to treeHeight - 2 above the origin. */
  predicate OnTrunk(origin: Pos, treeHeight: int, p: Pos)
  {
    p.x == origin.x && p.z == origin.z && 0 <= p.y - origin.y < treeHeight - 1
  }

  /** `p` passes the crown test: above the trunk height, within the 7x7 square, inside the ellipsoid. */
  predicate InCrown(origin: Pos, treeHeight: int, trunkHeight: int, p: Pos)
  {
    var i := p.y - origin.y;
    var xo := p.x - origin.x;
    var zo := p.z - origin.z;
    && trunkHeight < i < treeHeight
    && -CROWN_RADIUS <= xo <= CROWN_RADIUS && -CROWN_RADIUS <= zo <= CROWN_RADIUS
    && DistSqr(xo, i - trunkHeight, zo) < LEAF_DIST_SQR_LIMIT
  }

  predicate InRowFrom(origin: Pos, i: int, yo: int, zo: int, xo: int, p: Pos)
  {
    && p.y == origin.y + i && p.z == origin.z + zo
    && xo <= p.x - origin.x <= CROWN_RADIUS
    && DistSqr(p.x - origin.x, yo, zo) < LEAF_DIST_SQR_LIMIT
  }

  predicate InLayerFrom(origin: Pos, i: int, yo: int, zo: int, p: Pos)
  {
    && p.y == origin.y + i
    && zo <= p.z - origin.z <= CROWN_RADIUS
    && -CROWN_RADIUS <= p.x - origin.x <= CROWN_RADIUS
    && DistSqr(p.x - origin.x, yo, p.z - origin.z) < LEAF_DIST_SQR_LIMIT
  }

  lemma {:induction false} CrownRowAt(origin: Pos, i: int, yo: int, zo: int, xo: int, p: Pos)
    requires -CROWN_RADIUS <= xo <= CROWN_RADIUS + 1
    decreases CROWN_RADIUS + 1 - xo
    ensures At(CrownRow(origin, i, yo, zo, xo), p) == if InRowFrom(origin, i, yo, zo, xo, p) then [Leaf(p)] else []
  {
    if xo <= CROWN_RADIUS {
      var p0 := Pos(origin.x + xo, origin.y + i, origin.z + zo);
      var head := if DistSqr(xo, yo, zo) < LEAF_DIST_SQR_LIMIT then [Leaf(p0)] else [];
      AtConcat(head, CrownRow(origin, i, yo, zo, xo + 1), p);
      CrownRowAt(origin, i, yo, zo, xo + 1, p);
      if p == p0 {
        assert p.x - origin.x == xo;
        assert At(head, p) == head;
        assert !InRowFrom(origin, i, yo, zo, xo + 1, p);
      } else {
        assert At(head, p) == [];
        assert InRowFrom(origin, i, yo, zo, xo, p) <==> InRowFrom(origin, i, yo, zo, xo + 1, p);
      }
    }
  }

  lemma {:induction false} CrownLayerAt(origin: Pos, i: int, yo: int, zo: int, p: Pos)
    requires -CROWN_RADIUS <= zo <= CROWN_RADIUS + 1
    decreases CROWN_RADIUS + 1 - zo
    ensures At(CrownLayer(origin, i, yo, zo), p) == if InLayerFrom(origin, i, yo, zo, p) then [Leaf(p)] else []
  {
    if zo <= CROWN_RADIUS {
      AtConcat(CrownRow(origin, i, yo, zo, -CROWN_RADIUS), CrownLayer(origin, i, yo, zo + 1), p);
      CrownRowAt(origin, i, yo, zo, -CROWN_RADIUS, p);
      CrownLayerAt(origin, i, yo, zo + 1, p);
      if p.z - origin.z == zo {
        assert !InLayerFrom(origin, i, yo, zo + 1, p);
        assert InLayerFrom(origin, i, yo, zo, p) <==> InRowFrom(origin, i, yo, zo, -CROWN_RADIUS, p);
      } else {
        assert !InRowFrom(origin, i, yo, zo, -CROWN_RADIUS, p);
        assert InLayerFrom(origin, i, yo, zo, p) <==> InLayerFrom(origin, i, yo, zo + 1, p);
      }
    }
  }

  /** `p` is a crown cell at level `i` or above. */
  predicate InCrownFrom(origin: Pos, treeHeight: int, trunkHeight: int, i: int, p: Pos)
  {
    i <= p.y - origin.y && InCrown(origin, treeHeight, trunkHeight, p)
  }

  /** `p` is a trunk cell at level `i` or above. */
  predicate OnTrunkFrom(origin: Pos, treeHeight: int, i: int, p: Pos)
  {
    i <= p.y - origin.y && OnTrunk(origin, treeHeight, p)
  }

  lemma LevelLeavesAt(origin: Pos, treeHeight: int, trunkHeight: int, i: int, p: Pos)
    requires 0 <= i < treeHeight
    ensures At(LevelLeaves(origin, trunkHeight, i), p)
         == if p.y - origin.y == i && InCrown(origin, treeHeight, trunkHeight, p) then [Leaf(p)] else []
  {
    if i > trunkHeight {
      CrownLayerAt(origin, i, i - trunkHeight, -CROWN_RADIUS, p);
      assert InLayerFrom(origin, i, i - trunkHeight, -CROWN_RADIUS, p)
         <==> p.y - origin.y == i && InCrown(origin, treeHeight, trunkHeight, p);
    }
  }

  lemma LevelLogAt(origin: Pos, treeHeight: int, i: int, p: Pos)
    requires 0 <= i
    ensures At(LevelLog(origin, treeHeight, i), p)
         == if p.y - origin.y == i && OnTrunk(origin, treeHeight, p) then [Log(p)] else []
  {
    if i < treeHeight - 1 {
      var log := LevelLog(origin, treeHeight, i);
      assert At(log, p) == if p == Pos(origin.x, origin.y + i, origin.z) then log else [];
    }
  }

  /** One level aims at a cell of that level a leaf if it is in the crown, then a log if it is on the trunk. */
  lemma LevelPlanAt(origin: Pos, treeHeight: int, trunkHeight: int, i: int, p: Pos)
    requires 0 <= i < treeHeight
    ensures At(LevelPlan(origin, treeHeight, trunkHeight, i), p)
         == (if p.y - origin.y == i && InCrown(origin, treeHeight, trunkHeight, p) then [Leaf(p)] else [])
          + (if p.y - origin.y == i && OnTrunk(origin, treeHeight, p) then [Log(p)] else [])
  {
    AtConcat(LevelLeaves(origin, trunkHeight, i), LevelLog(origin, treeHeight, i), p);
    LevelLeavesAt(origin, treeHeight, trunkHeight, i, p);
    LevelLogAt(origin, treeHeight, i, p);
  }

  /** At each cell the level loop aims at most a leaf and then a log, each exactly where the shape says. */
  lemma {:induction false} TreePlanAt(origin: Pos, treeHeight: int, trunkHeight: int, i: int, p: Pos)
    requires 0 <= i <= treeHeight
    decreases treeHeight - i
    ensures At(TreePlan(origin, treeHeight, trunkHeight, i), p)
         == (if InCrownFrom(origin, treeHeight, trunkHeight, i, p) then [Leaf(p)] else [])
          + (if OnTrunkFrom(origin, treeHeight, i, p) then [Log(p)] else [])
  {
    if i < treeHeight {
      var level := LevelPlan(origin, treeHeight, trunkHeight, i);
      var rest := TreePlan(origin, treeHeight, trunkHeight, i + 1);
      AtConcat(level, rest, p);
      LevelPlanAt(origin, treeHeight, trunkHeight, i, p);
      TreePlanAt(origin, treeHeight, trunkHeight, i + 1, p);
      if p.y - origin.y == i {
        assert !InCrownFrom(origin, treeHeight, trunkHeight, i + 1, p) && !OnTrunkFrom(origin, treeHeight, i + 1, p);
        assert At(rest, p) == [];
      } else {
        assert At(level, p) == [];
        assert InCrownFrom(origin, treeHeight, trunkHeight, i, p) <==> InCrownFrom(origin, treeHeight, trunkHeight, i + 1, p);
        assert OnTrunkFrom(origin, treeHeight, i, p) <==> OnTrunkFrom(origin, treeHeight, i + 1, p);
      }
    } else {
      assert !InCrownFrom(origin, treeHeight, trunkHeight, i, p) && !OnTrunkFrom(origin, treeHeight, i, p);
    }
  }

  /** Every placement writes a log or leaves. */
  predicate LogsAndLeaves(pls: seq<Placement>)
  {
    forall pl :: pl in pls ==> pl.state == LOG || pl.state == LEAVES
  }

  /** A placement is among those aimed at its own cell. */
  lemma {:induction false} InAt(pls: seq<Placement>, pl: Placement)
    requires pl in pls
    ensures pl in At(pls, pl.pos)
  {
    if pls[0] != pl {
      InAt(pls[1..], pl);
      assert At(pls, pl.pos) == (if pls[0].pos == pl.pos then [pls[0]] else []) + At(pls[1..], pl.pos);
    }
  }

  /** growTree writes logs and leaves only, so none of its writes is air. */
  lemma TreePlanNoAir(origin: Pos, treeHeight: int, trunkHeight: int, i: int)
    requires 0 <= i <= treeHeight
    ensures LogsAndLeaves(TreePlan(origin, treeHeight, trunkHeight, i))
    ensures NoAirWrites(TreePlan(origin, treeHeight, trunkHeight, i))
  {
    var plan := TreePlan(origin, treeHeight, trunkHeight, i);
    forall pl | pl in plan
      ensures pl.state == LOG || pl.state == LEAVES
    {
      InAt(plan, pl);
      TreePlanAt(origin, treeHeight, trunkHeight, i, pl.pos);
    }
  }

  /** The cell `p` after growing a tree over `w`: a log on the trunk, a leaf in a crown cell that was air, otherwise untouched. */
  function ShapeCell(w: World, origin: Pos, treeHeight: int, trunkHeight: int, p: Pos): BlockState
    requires p in w
  {
    if OnTrunk(origin, treeHeight, p) then LOG
    else if InCrown(origin, treeHeight, trunkHeight, p) && w[p].IsAir() then LEAVES
    else w[p]
  }

  /**
   * growTree leaves every cell as ShapeCell says: logs on the whole trunk (overwriting
   * anything), leaves in the crown cells that held air, nothing else changed; and it
   * adds or removes no chunk.
   */
  lemma GrowTreeShape(w: World, origin: Pos, roll: int, p: Pos)
    requires 0 <= roll < 3
    ensures GrowTree(w, origin, roll).world.Keys == w.Keys
    ensures p in w ==>
      var treeHeight := TreeHeight(roll);
      GrowTree(w, origin, roll).world[p] == ShapeCell(w, origin, treeHeight, TrunkHeight(treeHeight), p)
  {
    var treeHeight := TreeHeight(roll);
    var trunkHeight := TrunkHeight(treeHeight);
    var plan := TreePlan(origin, treeHeight, trunkHeight, 0);
    if p in w {
      PlaceAllAt(w, plan, p);
      TreePlanAt(origin, treeHeight, trunkHeight, 0, p);
      var crown := InCrown(origin, treeHeight, trunkHeight, p);
      var trunk := OnTrunk(origin, treeHeight, p);
      assert InCrownFrom(origin, treeHeight, trunkHeight, 0, p) == crown;
      assert OnTrunkFrom(origin, treeHeight, 0, p) == trunk;
      var at := (if crown then [Leaf(p)] else []) + (if trunk then [Log(p)] else []);
      assert CellAll(w[p], at) == ShapeCell(w, origin, treeHeight, trunkHeight, p) by {
        if crown && trunk {
          assert at == [Leaf(p), Log(p)];
          assert CellAll(w[p], at) == CellAll(Cell(w[p], Leaf(p)), [Log(p)]);
        } else if crown {
          assert at == [Leaf(p)];
        } else if trunk {
          assert at == [Log(p)];
        } else {
          assert at == [];
        }
      }
    }
  }

  /** growTree fires no `onRemoved`: everything it writes is a log or a leaf. */
  lemma GrowTreeNoRemovals(w: World, origin: Pos, roll: int)
    requires 0 <= roll < 3
    ensures NoRemovals(GrowTree(w, origin, roll).events)
  {
    var treeHeight := TreeHeight(roll);
    var plan := TreePlan(origin, treeHeight, TrunkHeight(treeHeight), 0);
    TreePlanNoAir(origin, treeHeight, TrunkHeight(treeHeight), 0);
    PlaceAllNoRemovals(w, plan);
  }

  /**
   * Every crown cell that held air fires `onAdded` for its leaf; a trunk cell outside
   * the crown that held air fires it for its log.
   */
  lemma GrowTreeAdds(w: World, origin: Pos, roll: int, p: Pos)
    requires 0 <= roll < 3
    requires p in w && w[p].IsAir()
    ensures var treeHeight := TreeHeight(roll);
            InCrown(origin, treeHeight, TrunkHeight(treeHeight), p) ==> Added(p, LEAVES) in GrowTree(w, origin, roll).events
    ensures var treeHeight := TreeHeight(roll);
            OnTrunk(origin, treeHeight, p) && !InCrown(origin, treeHeight, TrunkHeight(treeHeight), p)
            ==> Added(p, LOG) in GrowTree(w, origin, roll).events
  {
    var treeHeight := TreeHeight(roll);
    var trunkHeight := TrunkHeight(treeHeight);
    var plan := TreePlan(origin, treeHeight, trunkHeight, 0);
    TreePlanAt(origin, treeHeight, trunkHeight, 0, p);
    var crown := InCrown(origin, treeHeight, trunkHeight, p);
    var trunk := OnTrunk(origin, treeHeight, p);
    assert InCrownFrom(origin, treeHeight, trunkHeight, 0, p) == crown;
    assert OnTrunkFrom(origin, treeHeight, 0, p) == trunk;
    if crown {
      assert At(plan, p)[0] == Leaf(p);
      PlaceAllAdds(w, plan, p);
    } else if trunk {
      assert At(plan, p) == [Log(p)];
      PlaceAllAdds(w, plan, p);
    }
  }

  /**
   * growTree fires nothing else: every callback is a leaf on a crown cell or a log on a
   * trunk cell, and an `onAdded` only where the cell held air. A leaf attempt on a cell
   * that is not air fires nothing.
   */
  lemma GrowTreeEventsSound(w: World, origin: Pos, roll: int)
    requires 0 <= roll < 3
    ensures var treeHeight := TreeHeight(roll);
            forall e :: e in GrowTree(w, origin, roll).events ==>
              && e.pos in w
              && (e.Added? || e.StateReplaced?)
              && ((e.state == LEAVES && InCrown(origin, treeHeight, TrunkHeight(treeHeight), e.pos))
                  || (e.state == LOG && OnTrunk(origin, treeHeight, e.pos)))
              && (e.Added? ==> w[e.pos].IsAir())
  {
    var treeHeight := TreeHeight(roll);
    var trunkHeight := TrunkHeight(treeHeight);
    var plan := TreePlan(origin, treeHeight, trunkHeight, 0);
    TreePlanNoAir(origin, treeHeight, trunkHeight, 0);
    PlaceAllNoRemovals(w, plan);
    forall e | e in GrowTree(w, origin, roll).events
      ensures (e.state == LEAVES && InCrown(origin, treeHeight, trunkHeight, e.pos))
              || (e.state == LOG && OnTrunk(origin, treeHeight, e.pos))
      ensures e.pos in w && (e.Added? ==> w[e.pos].IsAir())
    {
      PlaceAllEventsSound(w, plan, e);
      TreePlanAt(origin, treeHeight, trunkHeight, 0, e.pos);
      var pl :| pl in At(plan, e.pos) && pl.state == e.state;
      assert InCrownFrom(origin, treeHeight, trunkHeight, 0, e.pos) == InCrown(origin, treeHeight, trunkHeight, e.pos);
      assert OnTrunkFrom(origin, treeHeight, 0, e.pos) == OnTrunk(origin, treeHeight, e.pos);
    }
  }
}

=== FILE: world.dfy ===
/**
 * The authoritative world's storage and its write-then-notify protocol.
 *
 * The world is a finite map from positions to block states. A position outside the
 * map has no chunk: reading it yields air, writing it fails. Block callbacks
 * (`onRemoved`, `onAdded`, ...) are not executed; they are recorded as events.
 */
module WorldModel {
  import opened Geometry
  import opened Blocks

  type World = map<Pos, BlockState>

  /** Fixed world configuration; the sizes are the World constants. */
  datatype Config = Config(chunksX: int, chunksZ: int, chunkSize: int, worldHeight: int, randomTickSpeed: int) {
    predicate Valid() {
      chunksX > 0 && chunksZ > 0 && chunkSize > 0 && worldHeight > 0 && randomTickSpeed > 0
    }
  }

  /** The grid coordinates of a chunk. */
  datatype ChunkPos = ChunkPos(x: int, z: int)

  predicate InGrid(cfg: Config, c: ChunkPos) {
    0 <= c.x < cfg.chunksX && 0 <= c.z < cfg.chunksZ
  }

  /** The block-space box a chunk covers. */
  predicate InChunk(cfg: Config, c: ChunkPos, p: Pos) {
    && c.x * cfg.chunkSize <= p.x < c.x * cfg.chunkSize + cfg.chunkSize
    && 0 <= p.y < cfg.worldHeight
    && c.z * cfg.chunkSize <= p.z < c.z * cfg.chunkSize + cfg.chunkSize
  }

  /** The three kinds of neighbour notification. */
  datatype UpdateKind = BlockUpdate | StateUpdate | InventoryUpdate

  /** A callback delivered to the block state at `pos`. */
  datatype Event =
    | Removed(pos: Pos, state: BlockState)
    | Added(pos: Pos, state: BlockState)
    | StateReplaced(pos: Pos, state: BlockState)
    | NeighborUpdate(kind: UpdateKind, pos: Pos, fromDir: Direction, state: BlockState, neighborState: BlockState)
    | RandomUpdate(pos: Pos, state: BlockState)

  /** The outcome of one block write. */
  datatype Write = Write(world: World, changed: bool, events: seq<Event>)

  /** The outcome of a compound operation: the new world and the callbacks it fired, in order. */
  datatype Effect = Effect(world: World, events: seq<Event>)

  /** The state stored at `p`, or air where no chunk exists. */
  function GetBlockState(w: World, p: Pos): (s: BlockState)
    ensures p in w ==> s == w[p]
    ensures p !in w ==> s.IsAir()
  {
    if p in w then w[p] else AIR
  }

  /** The order in which setBlockState checks its edge rules. */
  function EdgeRank(e: Event): nat
  {
    match e
    case Removed(_, _) => 0
    case Added(_, _) => 1
    case _ => 2
  }

  /**
   * Writes `state` at `pos`. Nothing happens when no chunk holds `pos` or the stored
   * state is already `state`. A write that changes something fires, when
   * `updateNeighbors` is set, the removed / added / state-replaced callbacks, each
   * decided independently from the old and new states.
   */
  function SetBlockState(w: World, pos: Pos, state: BlockState, updateNeighbors: bool): (r: Write)
    ensures r.changed <==> pos in w && w[pos] != state
    ensures r.world == (if pos in w then w[pos := state] else w)
    ensures !r.changed || !updateNeighbors ==> r.events == []
    ensures r.changed && updateNeighbors ==>
      && (Removed(pos, w[pos]) in r.events <==> state.IsAir())
      && (Added(pos, state) in r.events <==> w[pos].IsAir())
      && (StateReplaced(pos, state) in r.events <==> w[pos].IsOf(state.block))
  {
    if pos !in w || w[pos] == state then Write(w, false, [])
    else
      var oldState := w[pos];
      var events :=
        (if state.IsAir() then [Removed(pos, oldState)] else [])
        + (if oldState.IsAir() then [Added(pos, state)] else [])
        + (if oldState.IsOf(state.block) then [StateReplaced(pos, state)] else []);
      Write(w[pos := state], true, if updateNeighbors then events else [])
  }

  /** setBlock: setBlockState with the block's default state. */
  function SetBlock(w: World, pos: Pos, b: Block, updateNeighbors: bool): (r: Write)
    ensures r == SetBlockState(w, pos, DefaultState(b), updateNeighbors)
    ensures r.changed <==> pos in w && w[pos] != DefaultState(b)
    ensures pos in w ==> r.world[pos] == DefaultState(b)
  {
    SetBlockState(w, pos, DefaultState(b), updateNeighbors)
  }

  /**
   * A write fires nothing but its own edge callbacks, at most one of each, in the
   * order removed, added, state-replaced.
   */
  lemma SetBlockStateEventOrder(w: World, pos: Pos, state: BlockState, updateNeighbors: bool)
    ensures var r := SetBlockState(w, pos, state, updateNeighbors);
            && (forall e :: e in r.events ==> e == Removed(pos, w[pos]) || e == Added(pos, state) || e == StateReplaced(pos, state))
            && (forall i, j :: 0 <= i < j < |r.events| ==> EdgeRank(r.events[i]) < EdgeRank(r.events[j]))
  {
  }

  /** Writing the state that is already stored is a no-op, so a repeated write reports no change. */
  lemma SetBlockStateIdempotent(w: World, pos: Pos, state: BlockState, updateNeighbors: bool)
    ensures var w1 := SetBlockState(w, pos, state, updateNeighbors).world;
            var r := SetBlockState(w1, pos, state, updateNeighbors);
            !r.changed && r.world == w1 && r.events == []
  {
  }

  /** A write of a non-air state never fires the removed callback. */
  lemma NonAirWriteNeverRemoves(w: World, pos: Pos, state: BlockState, updateNeighbors: bool)
    requires !state.IsAir()
    ensures forall e :: e in SetBlockState(w, pos, state, updateNeighbors).events ==> !e.Removed?
  {
  }
}

=== FILE: wrappers.dfy ===
/** An optional value and a value-or-error type, shared by the world model and the codec. */
module Wrappers {

  /** An optional value; used where the source passes a nullable reference. */
  datatype Option<+T> = None | Some(value: T)

  /** A value or an error; used where the source throws. */
  datatype Result<+R, +E> = Success(value: R) | Failure(error: E)
}
